=== FILE: README.md ===
# Cyclone Slider 2: image editor, editor selection and admin-page helpers in Dafny

This project models three parts of the Cyclone Slider 2 WordPress plugin and proves properties of them.

- **The Imagick image editor** (`src/CycloneSlider/Grafika/Imagick/Editor.php`). The class `ImagickEditor.Editor` has one mutable field, `image: Option<Image>`, which is empty until an image is opened. An `Image` record points at a native core, the heap object `GrafikaTypes.Core`, whose `pixels` the native calls replace in place. Records that share a core see each other's changes, so the model tracks that aliasing:
  - `_resize` resamples a non-GIF core in place and moves a GIF into a new core;
  - `_differenceHash`, `compare` and `overlay` therefore leave the caller's own cores resized;
  - `Picture` is what a record shows at one moment, and `View` reads it from the heap.

  Every method computes the arguments it hands to the native Imagick library: crop and overlay anchors, the sizes of the four aspect-ratio resize modes, the mode dispatch, the 9x8 difference hash, the Hamming-distance `compare`, the pixel-by-pixel `equal`, and the type and quality `save` picks. The native library is a record of opaque functions (`GrafikaTypes.Imagick`). The model passes it exactly the arguments the editor computes and keeps what it returns.
- **Editor selection** (`src/CycloneSlider/Grafika/Grafika.php`). This is a first-match search over an ordered list of editor names. Whether an editor is available is a parameter.
- **The admin-page helpers** (`dev-only/concat/js/admin.js`):
  - the localStorage branch of the bundled `store` facade (class `AdminStore.Store` over a map);
  - the slide-toggle table `CsUiOpen` (class `AdminUiOpen.CsUiOpen` over a JavaScript value);
  - the string rewrites `ieKeyFix`, form-field re-indexing and `{id}` template substitution.

  JavaScript values are the datatype `AdminValues.Value`.

The model follows these semantics:

- **PHP numbers** are `real`. This is exact where PHP's floats would round.
- **Rounding:** PHP `round` is half away from zero (`Round`). The `(int)` cast truncates toward zero (`Trunc`).
- **Division by zero:** the four aspect-ratio modes divide the width by the height. All of them but `exactHeight` then divide by that ratio, and so in effect by the width. The methods that use them require, when an image is loaded, a non-zero height, and also a non-zero width where the ratio is divided by.
- **Empty cores:** a core emptied by `clear()` has no pixels (`HoldsImage` is false). Resampling it for a difference hash throws, as Imagick does, and `DifferenceHash` and `Compare` return that throw as `EmptyCore`.
- **JavaScript values:** the admin script runs in strict mode, so a write into a primitive or into `null` throws a `TypeError`. The model returns that error as a value.

## Model

| member | source | states |
|---|---|---|
| ImagickGeometry.Round | src/CycloneSlider/Grafika/Imagick/Editor.php:169 | PHP `round`: within half of x, and a tie goes away from zero |
| ImagickGeometry.RoundIsUnique | src/CycloneSlider/Grafika/Imagick/Editor.php:169 | only one integer meets `Round`'s contract, so that contract defines half-away-from-zero rounding completely |
| ImagickGeometry.Trunc | src/CycloneSlider/Grafika/Imagick/Editor.php:169 | the `(int)` cast goes toward zero: the result lies within one unit of x, on the zero side |
| ImagickGeometry.Centered | src/CycloneSlider/Grafika/Imagick/Editor.php:167-170 | the centring offset leaves margins that differ by at most one pixel; a region that fits stays inside the canvas |
| ImagickGeometry.Place | src/CycloneSlider/Grafika/Imagick/Editor.php:544-581 | the anchor rule of `overlay`, and of `crop` (lines 156-193), on either axis: a number passes through; 'left' (x) or 'top' (y) gives 0; 'right' or 'bottom' puts the far edges flush; every other word, the other axis's words included, centres; a word anchor keeps a fitting region inside |
| ImagickGeometry.ExactWidthSize | src/CycloneSlider/Grafika/Imagick/Editor.php:731-744 | the width is the one given; the height is a whole number within half a pixel of the aspect-true height |
| ImagickGeometry.ExactHeightSize | src/CycloneSlider/Grafika/Imagick/Editor.php:709-722 | the height is the one given; the width keeps the aspect ratio exactly; only the height must be non-zero, so a zero width gives a zero new width |
| ImagickGeometry.FitSize | src/CycloneSlider/Grafika/Imagick/Editor.php:784-804 | the `resizeFit` size matches the new width or the new height |
| ImagickGeometry.FillSize | src/CycloneSlider/Grafika/Imagick/Editor.php:754-774 | the `resizeFill` size matches the new width or the new height |
| ImagickGeometry.FitSwitchesOnHeightOnly | src/CycloneSlider/Grafika/Imagick/Editor.php:784-804 | `resizeFit` takes the height-based size exactly when round(newWidth*h/w) > newHeight; the width test never matters |
| ImagickGeometry.FillSwitchesOnHeightOnly | src/CycloneSlider/Grafika/Imagick/Editor.php:754-774 | `resizeFill` takes the height-based size exactly when round(newWidth*h/w) < newHeight |
| ImagickGeometry.FitFitsInside | src/CycloneSlider/Grafika/Imagick/Editor.php:784-804 | for whole-pixel targets the fitted size lies inside the box, touches it on one side, and keeps the aspect ratio within half a pixel |
| ImagickGeometry.FillCovers | src/CycloneSlider/Grafika/Imagick/Editor.php:754-774 | for whole-pixel targets the filled size covers the box, matches it on one side, and keeps the aspect ratio within half a pixel |
| ImagickGeometry.FitByHeight | src/CycloneSlider/Grafika/Imagick/Editor.php:795-798 | the height-based `resizeFit` size, taken when the width-based one is too tall, lies in the box and keeps the aspect ratio |
| ImagickGeometry.FitByWidth | src/CycloneSlider/Grafika/Imagick/Editor.php:790-801 | the width-based `resizeFit` size, kept when it is not too tall, lies in the box and keeps the aspect ratio within half a pixel |
| ImagickGeometry.FillByHeight | src/CycloneSlider/Grafika/Imagick/Editor.php:765-768 | the height-based `resizeFill` size, taken when the width-based one is too short, covers the box and keeps the aspect ratio |
| ImagickGeometry.FillByWidth | src/CycloneSlider/Grafika/Imagick/Editor.php:760-771 | the width-based `resizeFill` size, kept when it is tall enough, covers the box and keeps the aspect ratio within half a pixel |
| ImagickHash.Brightness | src/CycloneSlider/Grafika/Imagick/Editor.php:973-977 | the grey level floor((r+g+b)/3) lies in 0..255 |
| ImagickHash.Bit | src/CycloneSlider/Grafika/Imagick/Editor.php:979-983 | a hash bit is '1' exactly when the left pixel is brighter than the right one, and '0' otherwise |
| ImagickHash.HashPrefix | src/CycloneSlider/Grafika/Imagick/Editor.php:968-987 | the hash built after n steps has n characters |
| ImagickHash.DHashShape | src/CycloneSlider/Grafika/Imagick/Editor.php:956-990 | the difference hash has 64 characters, each '0' or '1'; the bit for row y and column x is '1' iff column x-1 is brighter than column x |
| ImagickHash.DHash | src/CycloneSlider/Grafika/Imagick/Editor.php:956-990 | the hash of a 9x8 thumbnail has 64 characters |
| ImagickHash.Hamming | src/CycloneSlider/Grafika/Imagick/Editor.php:130-138 | the count of differing positions never exceeds the length |
| ImagickHash.HammingZeroIff | src/CycloneSlider/Grafika/Imagick/Editor.php:117-141 | the distance is 0 exactly for identical hashes |
| ImagickHash.HammingSymmetric | src/CycloneSlider/Grafika/Imagick/Editor.php:117-141 | the distance does not depend on the order of the images |
| ImagickHash.HammingTriangle | src/CycloneSlider/Grafika/Imagick/Editor.php:117-141 | the distance obeys the triangle inequality |
| ImagickHash.SameRgbIsEquivalence | src/CycloneSlider/Grafika/Imagick/Editor.php:282-304 | agreement on r, g and b read along the first grid's rows is reflexive, symmetric for grids of one shape, and transitive |
| ImagickHash.SameRgbLooksAlongFirst | src/CycloneSlider/Grafika/Imagick/Editor.php:282-304 | reading along the first grid only: a 1x1 grid agrees with a 1x2 grid that starts with its pixel, which does not even reach back |
| ImagickFiles.Basename | src/CycloneSlider/Grafika/Imagick/Editor.php:1036 | the base name holds no slash |
| ImagickFiles.Extension | src/CycloneSlider/Grafika/Imagick/Editor.php:1036 | the extension holds no slash and no dot |
| ImagickFiles.Lower | src/CycloneSlider/Grafika/Imagick/Editor.php:1036 | `strtolower` maps A-Z to a-z and keeps every other character |
| ImagickFiles.TypeFromFileName | src/CycloneSlider/Grafika/Imagick/Editor.php:1034-1047 | a file name without an extension has type UNKNOWN |
| ImagickFiles.ExtensionOfName | src/CycloneSlider/Grafika/Imagick/Editor.php:1036 | the extension of `stem.ext` is `ext`, even under dotted directories |
| ImagickFiles.TypeByExtension | src/CycloneSlider/Grafika/Imagick/Editor.php:1034-1047 | the type comes from the extension alone, case-insensitively: jpg/jpeg give JPEG, gif gives GIF, png gives PNG, anything else gives UNKNOWN (iff in each case) |
| ImagickFiles.NoDotNoType | src/CycloneSlider/Grafika/Imagick/Editor.php:1034-1047 | a file name without a dot has type UNKNOWN |
| ImagickFiles.JpegQuality | src/CycloneSlider/Grafika/Imagick/Editor.php:872-874 | a missing quality gives 75; the result always lies in 0..100; a value in range, fractional or from a numeric string, is kept; a value out of range goes to the nearer bound |
| ImagickEditor.Resized | src/CycloneSlider/Grafika/Imagick/Editor.php:1001-1025 | after `_resize(w, h)` the image reports width w and height h and keeps its file and type |
| ImagickEditor.Cropped | src/CycloneSlider/Grafika/Imagick/Editor.php:153-198 | crop changes only the pixels of the core: the recorded size, file and type stay |
| ImagickEditor.ExtentPixels | src/CycloneSlider/Grafika/Imagick/Editor.php:512-538 | a numeric extent is cast with `(int)`, so one below 1 gives 0; p% is p hundredths of the base image's side (100% the whole side); any other extent keeps the overlay's own side |
| ImagickEditor.FitResized | src/CycloneSlider/Grafika/Imagick/Editor.php:784-804 | after `resizeFit` the picture matches the new width or the new height and keeps its file and type |
| ImagickEditor.FillResized | src/CycloneSlider/Grafika/Imagick/Editor.php:754-774 | after `resizeFill` the recorded size matches the new width or the new height, and the file and type are kept |
| ImagickEditor.ExactWidthResized | src/CycloneSlider/Grafika/Imagick/Editor.php:731-744 | after `resizeExactWidth` the width is the one given and the height is within half a pixel of the aspect-true height |
| ImagickEditor.ExactHeightResized | src/CycloneSlider/Grafika/Imagick/Editor.php:709-722 | after `resizeExactHeight` the height is the one given and the aspect ratio is kept exactly, for any width, zero included |
| ImagickEditor.SizedOverlay | src/CycloneSlider/Grafika/Imagick/Editor.php:513-539 | unless both extents are truthy the overlay is used as it is; its file and type are kept either way |
| ImagickEditor.Overlaid | src/CycloneSlider/Grafika/Imagick/Editor.php:503-588 | overlaying keeps the base image's recorded size, file and type |
| ImagickEditor.TruthyZeroExtent | src/CycloneSlider/Grafika/Imagick/Editor.php:513-539 | a truthy extent whose value casts to 0, such as '0.0' or 0.5, still triggers the fit, which then asks for a side of 0 |
| ImagickEditor.Thumbnail | src/CycloneSlider/Grafika/Imagick/Editor.php:960-966 | an image resampled to 9x8 (`ResizesToThumb`, which `resizeImage` with best fit off meets) gives a 9x8 grid, which again holds an image |
| ImagickEditor.HashedPixels | src/CycloneSlider/Grafika/Imagick/Editor.php:956-966 | a GIF's core keeps its pixels; any other core that holds an image is left holding a 9x8 thumbnail; a core that held an image still holds one |
| ImagickEditor.SecondHashed | src/CycloneSlider/Grafika/Imagick/Editor.php:128-129 | an image with its own core is hashed as it is; one sharing the first image's core keeps its size, file and type but shows the first image's hashed pixels |
| ImagickEditor.CompareDistance | src/CycloneSlider/Grafika/Imagick/Editor.php:117-141 | `compare` fails with `EmptyCore` exactly when the first core, or the second one when it is not shared, is empty; otherwise the distance is at most 64 |
| ImagickEditor.SameImage | src/CycloneSlider/Grafika/Imagick/Editor.php:263-308 | images that `equal` accepts have the same recorded width and height |
| ImagickEditor.SaveType | src/CycloneSlider/Grafika/Imagick/Editor.php:844-850 | the type asked for wins; otherwise the extension's type; otherwise (UNKNOWN) the image's own type |
| ImagickEditor.Editor.constructor | src/CycloneSlider/Grafika/Imagick/Editor.php:35-38 | a new editor has no image |
| ImagickEditor.Editor.ImageCheck | src/CycloneSlider/Grafika/Imagick/Editor.php:1054-1059 | fails with 'No image to edit.' exactly when no image is loaded |
| ImagickEditor.Editor.OpenImage | src/CycloneSlider/Grafika/Imagick/Editor.php:469-474 | the given image becomes the one being edited |
| ImagickEditor.Editor.SetImage | src/CycloneSlider/Grafika/Imagick/Editor.php:892-895 | the given image becomes the one being edited |
| ImagickEditor.Editor.OpenFile | src/CycloneSlider/Grafika/Imagick/Editor.php:484-489 | the loaded picture becomes current in a new core; a loader failure is reported and leaves the editor unchanged |
| ImagickEditor.Editor.Open | src/CycloneSlider/Grafika/Imagick/Editor.php:449-460 | an image or a path is opened; anything else fails with 'Could not open image.' and changes nothing |
| ImagickEditor.Editor.Free | src/CycloneSlider/Grafika/Imagick/Editor.php:333-342 | `clear()` empties the loaded image's core; the image field itself is never reset |
| ImagickEditor.Editor.ResizeTo | src/CycloneSlider/Grafika/Imagick/Editor.php:1001-1025 | with no image: 'No image to edit.' and no change; otherwise the image shows the resampled pixels at exactly the new width and height, with the same file and type; a non-GIF keeps its core, which is changed in place; a GIF gets a new core and the old one is untouched |
| ImagickEditor.Editor.Crop | src/CycloneSlider/Grafika/Imagick/Editor.php:153-198 | with no image, fails on the first member call made on null, which depends on the anchors; otherwise the core is cropped at the anchored offsets |
| ImagickEditor.Editor.ResizeExact | src/CycloneSlider/Grafika/Imagick/Editor.php:694-700 | the image is resized to exactly the given size, or 'No image to edit.' |
| ImagickEditor.Editor.ResizeExactWidth | src/CycloneSlider/Grafika/Imagick/Editor.php:731-744 | the image is resized to `ExactWidthSize`; with no image it fails on `getWidth()` on null |
| ImagickEditor.Editor.ResizeExactHeight | src/CycloneSlider/Grafika/Imagick/Editor.php:709-722 | the image is resized to `ExactHeightSize`, which needs only a non-zero recorded height; with no image it fails on `getWidth()` on null |
| ImagickEditor.Editor.ResizeFit | src/CycloneSlider/Grafika/Imagick/Editor.php:784-804 | the image is resized to `FitSize`; with no image it fails on `getWidth()` on null |
| ImagickEditor.Editor.ResizeFill | src/CycloneSlider/Grafika/Imagick/Editor.php:754-774 | the image is resized to `FillSize`, then the centre newWidth x newHeight is cropped |
| ImagickEditor.Editor.Resize | src/CycloneSlider/Grafika/Imagick/Editor.php:655-684 | exactly the five modes are dispatched, each to its own resize; any other mode fails with 'Invalid resize mode "<mode>".' and leaves the image untouched; `exactHeight` needs only a non-zero height, the other ratio modes also a non-zero width |
| ImagickEditor.Editor.Overlay | src/CycloneSlider/Grafika/Imagick/Editor.php:503-588 | after the image check, shows `Overlaid`: when both extents are truthy the overlay is fitted, and a non-GIF overlay's own core is resized in place (the caller's overlay keeps that); the fitted overlay is composited at the anchored offsets, onto the resized pixels when base and overlay share a core |
| ImagickEditor.Editor.FitOverlay | src/CycloneSlider/Grafika/Imagick/Editor.php:535-539 | the second editor's image shows `FitResized` of the overlay; a non-GIF overlay's own core is the one resized, a GIF's is left untouched |
| ImagickEditor.Editor.Repaint | src/CycloneSlider/Grafika/Imagick/Editor.php:319-357 | a guarded repaint: with no image, 'No image to edit.'; otherwise one native call on the core |
| ImagickEditor.Editor.Fill | src/CycloneSlider/Grafika/Imagick/Editor.php:319-328 | after the image check, a flood fill from (x, y) with the given colour |
| ImagickEditor.Editor.Grayscale | src/CycloneSlider/Grafika/Imagick/Editor.php:350-367 | after the image check, `modulateImage(100, 0, 100)`; `greyscale` is the same |
| ImagickEditor.Editor.Opacity | src/CycloneSlider/Grafika/Imagick/Editor.php:427-439 | after the image check, the opacity is set to the given level clamped into 0..1 |
| ImagickEditor.Editor.Rotate | src/CycloneSlider/Grafika/Imagick/Editor.php:814-825 | after the image check, rotates by minus the angle over the given colour, black by default |
| ImagickEditor.Editor.Text | src/CycloneSlider/Grafika/Imagick/Editor.php:911-941 | after the image check, annotates with the baseline at y + size, in black unless a colour is given |
| ImagickEditor.Editor.Save | src/CycloneSlider/Grafika/Imagick/Editor.php:839-885 | fails exactly when no image is loaded; a GIF writes all frames, a PNG writes a PNG, and every other type writes a JPEG whose quality is `JpegQuality` truncated to the integer `setImageCompressionQuality` takes, so it lies in 0..100 and is the whole part of a quality given in range |
| ImagickEditor.Editor.Equal | src/CycloneSlider/Grafika/Imagick/Editor.php:263-308 | true iff the recorded widths and heights agree and every pixel of the first image agrees on r, g and b with the second image's pixel at that position (alpha ignored) |
| ImagickEditor.Editor.DifferenceHash | src/CycloneSlider/Grafika/Imagick/Editor.php:956-990 | for a core holding an image, the nested loops build exactly the difference hash of the 9x8 thumbnail, and the caller's core is left holding that thumbnail, a GIF's excepted; an empty core fails with `EmptyCore` and is left as it was |
| ImagickEditor.Editor.Compare | src/CycloneSlider/Grafika/Imagick/Editor.php:117-141 | the result is `CompareDistance` of the images as they were: a distance of at most 64, or `EmptyCore` exactly when either core is empty; cores are resampled in order, so an empty first core leaves both untouched and an empty second one leaves the first holding its thumbnail; when the images share a core the second hash is taken from the first one's thumbnail |
| ImagickEditor.CountDifferences | src/CycloneSlider/Grafika/Imagick/Editor.php:130-138 | the loop counts exactly the Hamming distance of the two hashes |
| ImagickEditor.CompareSymmetric | src/CycloneSlider/Grafika/Imagick/Editor.php:117-141 | for images with their own cores, comparing in either order gives the same distance, or the same failure |
| ImagickEditor.CompareZero | src/CycloneSlider/Grafika/Imagick/Editor.php:117-141 | for images with their own cores, the result is a distance of 0 exactly when both hold an image and the hashes agree, so always for the same non-empty pixels and type |
| ImagickEditor.CompareSelf | src/CycloneSlider/Grafika/Imagick/Editor.php:117-141 | `compare($img, $img)` fails on an empty core and gives 0 for a GIF; for any other image the second hash is read from the resampled thumbnail, so it gives 0 exactly when resampling the thumbnail again keeps its hash |
| ImagickEditor.SameImageIsEquivalence | src/CycloneSlider/Grafika/Imagick/Editor.php:263-308 | `equal` is reflexive, and symmetric for cores of one shape |
| ImagickEditor.FitResizedFits | src/CycloneSlider/Grafika/Imagick/Editor.php:784-804 | after `resizeFit` the picture fits the box, touches it on one side, and keeps its file and type |
| ImagickEditor.FillResizedCovers | src/CycloneSlider/Grafika/Imagick/Editor.php:754-774 | `resizeFill` resizes to a size covering the box, and its centre crop lies inside the resized image |
| Grafika.EditorFor | src/CycloneSlider/Grafika/Grafika.php:36-40 | exactly the name 'Imagick' is probed with Imagick; every other name is probed with GD |
| Grafika.DetectAvailableEditor | src/CycloneSlider/Grafika/Grafika.php:31-48 | returns the first available name, all earlier ones being unavailable; fails with 'No supported editor.' iff none is available (an empty list included) |
| Grafika.CreateEditor | src/CycloneSlider/Grafika/Grafika.php:58-66 | an Imagick editor iff the detected name is 'Imagick', GD otherwise; the editor is available |
| Grafika.CreateImage | src/CycloneSlider/Grafika/Grafika.php:75-83 | the file is opened with the image class of the editor `createEditor` would pick by default |
| Grafika.CreateBlankImage | src/CycloneSlider/Grafika/Grafika.php:95-103 | a blank image of the given size from the editor picked by default |
| Grafika.DefaultOrderPrefersImagick | src/CycloneSlider/Grafika/Grafika.php:31 | the default order tries Imagick, then GD, then fails; a blank image is 1x1 by default |
| Grafika.EarlierEntryWins | src/CycloneSlider/Grafika/Grafika.php:35-45 | an available name at the head of the list is the one detected |
| Grafika.UnavailablePrefixSkipped | src/CycloneSlider/Grafika/Grafika.php:35-45 | unavailable names before the rest of the list change nothing |
| AdminValues.Member | dev-only/concat/js/admin.js:236-237 | property lookup gives an object's member, and undefined when there is none |
| AdminValues.Jsonify | dev-only/concat/js/admin.js:54-61 | the JSON round trip keeps every value other than an object, and drops an object's undefined members |
| AdminValues.JsonifyClean | dev-only/concat/js/admin.js:54-61 | the round trip gives a value with no undefined inside, and a value with none survives it unchanged |
| AdminValues.JsonifyIdempotent | dev-only/concat/js/admin.js:54-61 | a second round trip changes nothing |
| AdminStore.Lookup | dev-only/concat/js/admin.js:78-81 | `get` gives the stored value, or the default when the key is missing |
| AdminStore.Written | dev-only/concat/js/admin.js:73-77 | setting undefined removes the key; otherwise the JSON round trip is stored; no other key changes |
| AdminStore.TransactDefault | dev-only/concat/js/admin.js:39-46 | the two-argument form and a null or undefined default read with `{}`; otherwise the default given |
| AdminStore.Transacted | dev-only/concat/js/admin.js:39-50 | a value read that is not an object is written back as read; on a missing key the callback's result on the default is written |
| AdminStore.Store.constructor | dev-only/concat/js/admin.js:188-196 | when localStorage takes the test write, the self-test leaves the storage without its test key and the store enabled; when the write throws, the catch leaves the storage as it was and the store disabled |
| AdminStore.Store.Set | dev-only/concat/js/admin.js:73-77 | when the write is taken (always for undefined, which only removes), the storage becomes `Written(...)` and the value passed in is returned; when `setItem` refuses it, `QuotaExceeded` is thrown and the storage is unchanged |
| AdminStore.Store.Get | dev-only/concat/js/admin.js:78-81 | returns `Lookup` of the storage |
| AdminStore.Store.Has | dev-only/concat/js/admin.js:36 | true iff `get(key) !== undefined`, that is, iff the key holds a value |
| AdminStore.Store.Remove | dev-only/concat/js/admin.js:82 | the key is gone and nothing else changes |
| AdminStore.Store.Clear | dev-only/concat/js/admin.js:83 | the storage is empty |
| AdminStore.Store.Transact | dev-only/concat/js/admin.js:39-50 | the value read (or the default) goes through the callback and is written back under the same key; a refused write-back throws `QuotaExceeded` and leaves the storage unchanged |
| AdminStore.Store.ForEach | dev-only/concat/js/admin.js:91-96 | every stored key is visited exactly once, with its value |
| AdminStore.Store.GetAll | dev-only/concat/js/admin.js:84-90 | the object built through `forEach` equals the storage |
| AdminStore.SetThenGet | dev-only/concat/js/admin.js:73-81 | after `set`, `get` gives the value written (the value itself when JSON carries it unchanged), or the default after `set(undefined)`; other keys read as before |
| AdminStore.HasAfterSet | dev-only/concat/js/admin.js:36 | after `set`, `has` holds iff the value written was not undefined |
| AdminStore.SetWhatWasRead | dev-only/concat/js/admin.js:73-81 | writing back what `get` read leaves the storage as it was |
| AdminStore.TransactOnMissingKey | dev-only/concat/js/admin.js:39-50 | on a missing key with no usable default, the callback receives a fresh `{}` |
| AdminStore.TransactOnStoredObject | dev-only/concat/js/admin.js:39-50 | on a stored object, the callback receives that object |
| AdminUiOpen.Toggle | dev-only/concat/js/admin.js:235-242 | `get` never returns null or undefined; a non-false answer is the stored value; a stored value that is not nullish is returned |
| AdminUiOpen.AfterSet | dev-only/concat/js/admin.js:243-249 | `set` throws iff the table is a primitive or the slideshow entry is null; on success the table gains the slideshow's key and no other |
| AdminUiOpen.AfterRemove | dev-only/concat/js/admin.js:250-256 | `remove` deletes the key from the slideshow's entry when it holds something, and otherwise changes nothing |
| AdminUiOpen.CsUiOpen.constructor | dev-only/concat/js/admin.js:229-234 | falsy data starts an empty table; any other data is the table |
| AdminUiOpen.CsUiOpen.Get | dev-only/concat/js/admin.js:235-242 | returns `Toggle` of the table |
| AdminUiOpen.CsUiOpen.Set | dev-only/concat/js/admin.js:243-249 | the table becomes `AfterSet(...)`, or a TypeError leaves it unchanged |
| AdminUiOpen.CsUiOpen.Remove | dev-only/concat/js/admin.js:250-256 | the table becomes `AfterRemove(...)` |
| AdminUiOpen.CsUiOpen.GetAll | dev-only/concat/js/admin.js:257-259 | returns the table |
| AdminUiOpen.CsUiOpen.Clear | dev-only/concat/js/admin.js:260-262 | the table is `{}`, and every `get` then returns false |
| AdminUiOpen.GetAfterSet | dev-only/concat/js/admin.js:235-249 | after `set(s, k, v)`, `get(s, k)` returns v (false for null or undefined), and every other entry reads as before |
| AdminUiOpen.GetAfterRemove | dev-only/concat/js/admin.js:235-256 | after `remove(s, k)`, `get(s, k)` is false, every other entry reads as before, and removing an absent entry is a no-op |
| AdminUiOpen.RemoveUndoesSet | dev-only/concat/js/admin.js:243-256 | `set` then `remove` of one entry leaves `get` at false |
| AdminStrings.Decimal | dev-only/concat/js/admin.js:297 | a number's decimal text is a non-empty run of digits with no leading zero |
| AdminStrings.DecimalRoundTrip | dev-only/concat/js/admin.js:297 | reading the decimal text back gives the number |
| AdminStrings.DecimalInjective | dev-only/concat/js/admin.js:297 | different numbers are written differently |
| AdminStrings.ReplaceForbidden | dev-only/concat/js/admin.js:142-144 | no forbidden character is left, a key without one is unchanged, and the first character is kept or becomes '_' |
| AdminStrings.ReplaceForbiddenChar | dev-only/concat/js/admin.js:142-144 | a single forbidden character becomes '___', any other character is kept |
| AdminStrings.ReplaceForbiddenAppend | dev-only/concat/js/admin.js:142-144 | the rewrite distributes over concatenation, so with `ReplaceForbiddenChar` it is fixed for every input |
| AdminStrings.IeKeyFix | dev-only/concat/js/admin.js:143-145 | the fixed key holds no forbidden character |
| AdminStrings.IeKeyFixRewrites | dev-only/concat/js/admin.js:143-145 | as written, '___' goes in front exactly when the key starts with the letter 'd', then forbidden characters are replaced |
| AdminStrings.IeKeyFixIntended | dev-only/concat/js/admin.js:139-145 | the corrected fix leaves no forbidden character |
| AdminStrings.IeKeyFixMissesLeadingDigit | dev-only/concat/js/admin.js:139-145 | as written, "1a" passes through still starting with a digit, and "data" becomes "___data" |
| AdminStrings.IeKeyFixIntendedSafe | dev-only/concat/js/admin.js:139-145 | with `/^\d/`, the result has no forbidden character and no leading digit; an acceptable key is kept; the fix is idempotent |
| AdminStrings.DigitRun | dev-only/concat/js/admin.js:297 | the run `[0-9]+` matches: digits up to the first non-digit |
| AdminStrings.FirstGroup | dev-only/concat/js/admin.js:297 | the leftmost `[digits]` group, with none before it; none when the name has no group |
| AdminStrings.ReindexName | dev-only/concat/js/admin.js:297 | a name without a `[digits]` group is unchanged |
| AdminStrings.ReindexNameShape | dev-only/concat/js/admin.js:297 | only the first `[digits]` group is rewritten, to `[boxIndex]`; the text around it is kept, and the new group is the first group of the result |
| AdminStrings.ReindexNameTwice | dev-only/concat/js/admin.js:297 | re-indexing twice gives the result of the last index alone, so the same index again changes nothing |
| AdminStrings.FirstDigit | dev-only/concat/js/admin.js:304 | the position of the first digit, with no digit before it |
| AdminStrings.RenumberId | dev-only/concat/js/admin.js:302-311 | a name without digits is unchanged |
| AdminStrings.RenumberIdShape | dev-only/concat/js/admin.js:302-311 | a name without digits is unchanged; otherwise the text before the first digit run is kept, the run becomes the box index, and the text after the run is kept; renumbering again overrides only that run |
| AdminStrings.NoPlaceholderLeft | dev-only/concat/js/admin.js:334-336 | after substitution no `{id}` is left anywhere |
| AdminStrings.NoPlaceholderUnchanged | dev-only/concat/js/admin.js:334-336 | a template without `{id}` is left as it is |
| AdminStrings.FillTemplate | dev-only/concat/js/admin.js:334-336 | a template without '{' is returned as it is |
| AdminStrings.FillTemplatePlain | dev-only/concat/js/admin.js:334-336 | text without '{' in front of the template is copied unchanged |
| AdminStrings.FillTemplateReplaces | dev-only/concat/js/admin.js:334-336 | scanning from the left, the text up to the first `{id}` is kept and that `{id}` becomes the decimal slide count |

## Left out

- **Native Imagick work.** Resampling filters, cropping, compositing, flood fill, modulation, rotation, annotation and GIF frame coalescing are all foreign code. They are the opaque function fields of `GrafikaTypes.Imagick`. The model fixes only the arguments passed to them.
- **Native call arguments.** `fill`'s target colour, which is read from the native pixel at (x, y), is part of the opaque `FloodFill` call.
- **Image.php.** It is not part of this model. The `Image` record, `createFromFile`, `createBlank` and `blank` are represented only by the fields the editor reads.
  - `Cropped` keeps the recorded width and height, because `crop` never rebuilds the record.
- Equal: requires the second core to have a pixel wherever the first core has one when the recorded sizes agree. What `getImagePixelColor` returns outside the image is not modelled.
- DifferenceHash: requires `ResizesToThumb`: resampling a core that holds an image to exactly 9x8 gives 9 columns and 8 rows. Imagick's `resizeImage` with best fit off does this. It is the only resample size the proofs rely on.
- Compare: requires `ResizesToThumb` for the same reason.
- ResizeTo: a GIF's frames are one raster. Coalescing, per-frame resampling and `setImagePage` are inside the opaque resample call.
- Free: `clear()` is modelled as leaving the core with no pixels. Any other native resources it releases are not modelled.
  - Only `DifferenceHash` and `Compare` model Imagick's throw on an emptied core.
  - Every other native call on one (resize, crop, composite, the repaints) is an opaque library function that returns a raster.
- **Path arguments.** `compare`, `equal` and `overlay` also accept a file path, which they open with `Image::createFromFile`. The model takes only images there. `openFile` takes the loader as a parameter.
- **Other editor members.** `apply`, `draw`, `dither`, `blank`, `getImage` and the drawing helpers (`bezierCubic`, `bezierQuad`, `ellipse`, `line`, `polygon`, `rectangle`) depend on effect and drawing-object classes outside this model.
- **Editor availability.** `isAvailable` probes PHP extensions; it is the `available` parameter of `Grafika`.
- **Files and fonts.** `save`'s directory creation and `writeImage`, and the `fontsDir` path, are file-system I/O. `Save` returns the write it would make.
- **Save type argument.** `Save` takes the type as an `ImageType`. A type string other than the four `ImageType` constants is not modelled.
- JpegQuality: a quality is its numeric value, a `real`, whether it was given as a number or a numeric string. A non-numeric string, which PHP's comparisons treat as 0 and pass on unclamped, is not modelled.
- **Numbers and zero sizes.**
  - PHP floats are exact `real`s, so float rounding in the ratio arithmetic and in `opacity` is not modelled.
  - `ResizeExactWidth`, `ResizeFit`, `ResizeFill` and `Overlay` require a non-zero width and height, because PHP would divide by zero.
  - `ResizeExactHeight` requires only a non-zero height.
  - `Resize` requires what its mode divides by.
- Equal: compares widths and heights as numbers. PHP's `!==` also tells an integer width from the same width held as a float (which the ratio resize modes can leave), and then answers false.
- **Overlay extents.** An overlay width or height is modelled after PHP's tests on it, not as the raw value: `Falsy` (null, false, 0, 0.0, '' or '0'), `Numeric` (any other number or numeric string, with its value), `Percent` (a non-numeric string holding '%', with its `intval`) or `Text` (any other truthy value).
- **The store's other branches.** The IE `userData` branch and the environment probing of the bundled store are host-specific storage. `ieKeyFix` is modelled on its own.
- Store.constructor / Store.Set: whether localStorage takes a write is the `accepts` parameter, the browser's decision. Why it refuses (quota size, private browsing) is not modelled.
- **Stored values.**
  - Storage holds decoded values, and `set` stores `Jsonify` of the value. A stored string that is not valid JSON, which `deserialize` returns as itself, is not modelled.
  - Key order in `forEach` is the order of the map's keys, chosen by `:|`, not the browser's index order.
- **Transact callbacks.** `Transact` models the callback as a function giving the new value of an object. A callback's side effects elsewhere are not modelled.
- **CsUiOpen values.**
  - Arrays, and the index properties of strings, are not modelled: `Member` on anything but an object is undefined.
  - `GetAll` returns the table as a value, so later changes through the returned object (aliasing) are not modelled.
- **DOM code in admin.js.** The `cs_local_storage` wrapper, the jQuery handlers, animations, AJAX and media frames are DOM and UI code. Only the string rewrites inside the handlers are modelled.
- **Interfaces and drawing objects.** `EditorInterface.php`, `EffectInterface.php` and the drawing-object classes declare signatures or plain records, with no behaviour to state.

## Findings

| source | as written | input that shows it | evidently intended | confidence | as-written member | corrected member |
|---|---|---|---|---|---|---|
| dev-only/concat/js/admin.js:144 | `key.replace(/^d/, '___$&')` prefixes a leading letter `d`, although the comment above it says IE keys cannot start with a digit | `"1a"` is returned as `"1a"`, which still starts with a digit; `"data"` becomes `"___data"` | `/^\d/`, prefixing a leading digit | medium, not executed | AdminStrings.IeKeyFixMissesLeadingDigit | AdminStrings.IeKeyFixIntendedSafe |

=== FILE: admin_store.dfy ===
/**
 * The `store` key/value facade over localStorage (store.js 1.3.20, bundled
 * at the top of admin.js), in its localStorage branch. The browser storage
 * is a map from keys to the values its serialized strings decode to;
 * `set` stores the JSON round trip of the value.
 */
module AdminStore {

  import opened Wrappers
  import opened AdminValues

  /** The key the self-test writes, reads back and removes when the store is built. */
  const TestKey := "__storejs__"

  /** `store.get(key, defaultVal)`: the stored value, or the default when nothing (or undefined) is stored. */
  function Lookup(storage: map<string, Value>, key: string, defaultVal: Value): (v: Value)
    ensures key in storage && storage[key] != Undefined ==> v == storage[key]
    ensures key !in storage || storage[key] == Undefined ==> v == defaultVal
  {
    if key in storage && storage[key] != Undefined then storage[key] else defaultVal
  }

  /** The storage after `store.set(key, val)`: undefined removes the key, anything else is stored as its JSON round trip. */
  function Written(storage: map<string, Value>, key: string, val: Value): (s: map<string, Value>)
    ensures val == Undefined ==> s == storage - {key}
    ensures val != Undefined ==> key in s && s[key] == Jsonify(val)
    ensures forall k | k != key :: (k in s <==> k in storage) && (k in s ==> s[k] == storage[k])
  {
    if val == Undefined then storage - {key} else storage[key := Jsonify(val)]
  }

  /** localStorage's `setItem` throws when it refuses a write (quota exceeded, storage turned off). */
  datatype Refused = QuotaExceeded

  /**
   * Whether localStorage takes a write of a key's serialized value, given
   * what it holds already: the browser's decision, outside the script.
   */
  type Acceptor = (map<string, Value>, string, Value) -> bool

  /**
   * Whether `store.set(key, val)` completes: undefined only removes, which
   * never throws; any other value is a `setItem` of its JSON round trip.
   */
  predicate Takes(accepts: Acceptor, storage: map<string, Value>, key: string, val: Value)
  {
    val == Undefined || accepts(storage, key, Jsonify(val))
  }

  /** The two ways `transact` is called: `transact(key, fn)` and `transact(key, defaultVal, fn)`. */
  datatype TransactCall =
    | TwoArgs(fn: Value -> Value)
    | ThreeArgs(defaultVal: Value, fn: Value -> Value)

  /** The default `transact` reads with: null for the two-argument form, and `{}` in place of null or undefined. */
  function TransactDefault(call: TransactCall): (d: Value)
    ensures d != Undefined && d != Null
    ensures call.ThreeArgs? && !Nullish(call.defaultVal) ==> d == call.defaultVal
    ensures call.TwoArgs? || Nullish(call.defaultVal) ==> d == Obj(map[])
  {
    var d := if call.TwoArgs? then Null else call.defaultVal;
    if Nullish(d) then Obj(map[]) else d
  }

  /**
   * The value `transact` writes back: what `get` returned, after the
   * callback has changed it in place. `fn` stands for that in-place change,
   * which only an object can undergo; a primitive is written back as read.
   */
  function Transacted(storage: map<string, Value>, key: string, call: TransactCall): (v: Value)
    ensures !Lookup(storage, key, TransactDefault(call)).Obj? ==> v == Lookup(storage, key, TransactDefault(call))
    ensures key !in storage || storage[key] == Undefined ==> v == call.fn(TransactDefault(call)) || !TransactDefault(call).Obj?
  {
    var val := Lookup(storage, key, TransactDefault(call));
    if val.Obj? then call.fn(val) else val
  }

  class Store {

    /** The decoded contents of localStorage. */
    var storage: map<string, Value>

    /** `store.enabled`: the self-test neither threw nor read back a different value. */
    var enabled: bool

    /** Which writes the browser's localStorage takes. */
    const accepts: Acceptor

    /**
     * Builds the store over the given storage and runs the self-test: set
     * `__storejs__`, read it back, remove it. When the write throws, the
     * catch marks the store disabled and the removal never runs.
     */
    constructor (initial: map<string, Value>, accepts: Acceptor)
      ensures this.accepts == accepts
      ensures accepts(initial, TestKey, Str(TestKey)) ==> storage == initial - {TestKey} && enabled
      ensures !accepts(initial, TestKey, Str(TestKey)) ==> storage == initial && !enabled
    {
      storage := initial;
      enabled := true;
      this.accepts := accepts;
      new;
      var test := Set(TestKey, Str(TestKey));
      if test.Failure? {
        enabled := false;
      } else {
        var got := Get(TestKey);
        var disabled := got != Str(TestKey);
        Remove(TestKey);
        enabled := !disabled;
      }
    }

    /**
     * `store.set`: an undefined value removes the key; otherwise the value
     * is stored and returned, unless `setItem` refuses it and throws.
     */
    method Set(key: string, val: Value) returns (r: Result<Value, Refused>)
      modifies this
      ensures Takes(accepts, old(storage), key, val) ==> r == Success(val) && storage == Written(old(storage), key, val)
      ensures !Takes(accepts, old(storage), key, val) ==> r == Failure(QuotaExceeded) && storage == old(storage)
      ensures enabled == old(enabled)
    {
      if val == Undefined {
        Remove(key);
        return Success(Undefined);
      }
      if !accepts(storage, key, Jsonify(val)) {
        return Failure(QuotaExceeded);
      }
      storage := storage[key := Jsonify(val)];
      return Success(val);
    }

    /** `store.get`: the stored value, or `defaultVal` when the key holds nothing. */
    method Get(key: string, defaultVal: Value := Undefined) returns (v: Value)
      ensures v == Lookup(storage, key, defaultVal)
    {
      var val := if key in storage then storage[key] else Undefined;
      v := if val == Undefined then defaultVal else val;
    }

    /** `store.has`: `get(key) !== undefined`, that is, the key holds a value. */
    method Has(key: string) returns (b: bool)
      ensures b <==> Lookup(storage, key, Undefined) != Undefined
      ensures b <==> key in storage && storage[key] != Undefined
    {
      var v := Get(key);
      b := v != Undefined;
    }

    /** `store.remove`. */
    method Remove(key: string)
      modifies this
      ensures storage == old(storage) - {key}
      ensures enabled == old(enabled)
    {
      storage := storage - {key};
    }

    /** `store.clear`. */
    method Clear()
      modifies this
      ensures storage == map[]
      ensures enabled == old(enabled)
    {
      storage := map[];
    }

    /**
     * `store.transact`: reads the key (with `{}` for a missing default),
     * lets the callback change that value in place and writes it back; the
     * write-back throws when `setItem` refuses it.
     */
    method Transact(key: string, call: TransactCall) returns (r: Outcome<Refused>)
      modifies this
      ensures var v := Transacted(old(storage), key, call);
              Takes(accepts, old(storage), key, v) ==> r == Done && storage == Written(old(storage), key, v)
      ensures var v := Transacted(old(storage), key, call);
              !Takes(accepts, old(storage), key, v) ==> r == Fail(QuotaExceeded) && storage == old(storage)
      ensures enabled == old(enabled)
    {
      var fn, defaultVal;
      match call {
        case TwoArgs(f) =>
          fn, defaultVal := f, Null;
        case ThreeArgs(d, f) =>
          fn, defaultVal := f, d;
      }
      if Nullish(defaultVal) {
        defaultVal := Obj(map[]);
      }
      var val := Get(key, defaultVal);
      if val.Obj? {
        val := fn(val);
      }
      var written := Set(key, val);
      r := if written.Success? then Done else Fail(written.error);
    }

    /**
     * `store.forEach`: the (key, get(key)) pairs the callback receives,
     * one per stored key, in the storage's own key order.
     */
    method ForEach() returns (visits: seq<(string, Value)>)
      ensures forall i | 0 <= i < |visits| :: visits[i].0 in storage && visits[i].1 == storage[visits[i].0]
      ensures forall k | k in storage :: exists i :: 0 <= i < |visits| && visits[i].0 == k
      ensures forall i, j | 0 <= i < j < |visits| :: visits[i].0 != visits[j].0
    {
      visits := [];
      var remaining := storage.Keys;
      while remaining != {}
        invariant remaining <= storage.Keys
        invariant forall i | 0 <= i < |visits| :: visits[i].0 in storage.Keys - remaining
        invariant forall i | 0 <= i < |visits| :: visits[i].1 == storage[visits[i].0]
        invariant forall k | k in storage.Keys - remaining :: exists i :: 0 <= i < |visits| && visits[i].0 == k
        invariant forall i, j | 0 <= i < j < |visits| :: visits[i].0 != visits[j].0
        decreases remaining
      {
        var key :| key in remaining;
        var val := Get(key);
        var before, unvisited := visits, remaining;
        visits := visits + [(key, val)];
        remaining := remaining - {key};
        forall k | k in storage.Keys - remaining
          ensures exists i :: 0 <= i < |visits| && visits[i].0 == k
        {
          if k == key {
            assert visits[|before|].0 == k;
          } else {
            assert k in storage.Keys - unvisited;
            var i :| 0 <= i < |before| && before[i].0 == k;
            assert visits[i].0 == k;
          }
        }
      }
      assert storage.Keys - remaining == storage.Keys;
    }

    /** `store.getAll`: an object holding every stored key with its value, built through `forEach`. */
    method GetAll() returns (all: map<string, Value>)
      ensures all == storage
    {
      var visits := ForEach();
      all := map[];
      var i := 0;
      while i < |visits|
        invariant 0 <= i <= |visits|
        invariant all.Keys == set j | 0 <= j < i :: visits[j].0
        invariant forall k | k in all :: k in storage && all[k] == storage[k]
      {
        all := all[visits[i].0 := visits[i].1];
        i := i + 1;
      }
      assert forall k | k in storage :: k in all by {
        forall k | k in storage
          ensures k in all
        {
          var j :| 0 <= j < |visits| && visits[j].0 == k;
        }
      }
    }
  }

  /**
   * After `set(key, val)`, `get(key, d)` returns the stored JSON round trip
   * of `val` (`val` itself when JSON carries it unchanged), or `d` when
   * `val` was undefined; every other key reads as before.
   */
  lemma SetThenGet(storage: map<string, Value>, key: string, val: Value, other: string, d: Value)
    ensures val == Undefined ==> Lookup(Written(storage, key, val), key, d) == d
    ensures val != Undefined ==> Lookup(Written(storage, key, val), key, d) == Jsonify(val)
    ensures val != Undefined && JsonClean(val) ==> Lookup(Written(storage, key, val), key, d) == val
    ensures other != key ==> Lookup(Written(storage, key, val), other, d) == Lookup(storage, other, d)
  {
    if val != Undefined {
      JsonifyClean(val);
    }
  }

  /** `has` after `set`: true exactly when the value written was not undefined. */
  lemma HasAfterSet(storage: map<string, Value>, key: string, val: Value)
    ensures Lookup(Written(storage, key, val), key, Undefined) != Undefined <==> val != Undefined
  {
  }

  /**
   * Setting a value already read from the store writes back the same
   * entry: `set(key, get(key))` changes nothing when the key holds a value.
   */
  lemma SetWhatWasRead(storage: map<string, Value>, key: string)
    requires key in storage && storage[key] != Undefined && JsonClean(storage[key])
    ensures Written(storage, key, Lookup(storage, key, Undefined)) == storage
  {
    JsonifyClean(storage[key]);
  }

  /**
   * `transact` on a key holding nothing, with no usable default, hands the
   * callback a fresh `{}` and stores what the callback leaves in it.
   */
  lemma TransactOnMissingKey(storage: map<string, Value>, key: string, call: TransactCall)
    requires key !in storage
    requires call.TwoArgs? || Nullish(call.defaultVal)
    ensures Transacted(storage, key, call) == call.fn(Obj(map[]))
  {
  }

  /** `transact` on a key holding an object passes that object to the callback, whatever the default. */
  lemma TransactOnStoredObject(storage: map<string, Value>, key: string, call: TransactCall)
    requires key in storage && storage[key].Obj?
    ensures Transacted(storage, key, call) == call.fn(storage[key])
  {
  }
}

=== FILE: admin_strings.dfy ===
/**
 * The string rewrites of the admin script: the storage-key fix for old
 * Internet Explorer (`ieKeyFix`), the form-field re-indexing done when
 * slides are reordered, and the `{id}` substitution in the slide template.
 * Each JavaScript `replace` is written out as the leftmost match its
 * regular expression finds.
 */
module AdminStrings {

  import opened Wrappers

  predicate IsDigit(c: char)
  {
    '0' <= c <= '9'
  }

  predicate AllDigits(s: string)
  {
    forall i :: 0 <= i < |s| ==> IsDigit(s[i])
  }

  function DigitChar(d: nat): (c: char)
    requires d < 10
    ensures IsDigit(c)
  {
    ('0' as int + d) as char
  }

  /** `String(n)` for a whole number: its decimal digits, without leading zeros. */
  function Decimal(n: nat): (s: string)
    ensures |s| >= 1 && AllDigits(s)
    ensures |s| > 1 ==> s[0] != '0'
  {
    if n < 10 then [DigitChar(n)] else Decimal(n / 10) + [DigitChar(n % 10)]
  }

  /** The number a string of decimal digits denotes. */
  function ParseDecimal(s: string): nat
    requires AllDigits(s)
  {
    if s == [] then 0 else ParseDecimal(s[..|s| - 1]) * 10 + (s[|s| - 1] as int - '0' as int)
  }

  /** Reading back the digits of a number gives the number. */
  lemma {:induction false} DecimalRoundTrip(n: nat)
    ensures ParseDecimal(Decimal(n)) == n
  {
    if n >= 10 {
      DecimalRoundTrip(n / 10);
      var s := Decimal(n);
      assert s[..|s| - 1] == Decimal(n / 10);
    }
  }

  /** Different numbers are written differently. */
  lemma {:induction false} DecimalInjective(m: nat, n: nat)
    requires Decimal(m) == Decimal(n)
    ensures m == n
  {
    DecimalRoundTrip(m);
    DecimalRoundTrip(n);
  }

  // ---------------------------------------------------------------------
  // ieKeyFix

  /** The characters old Internet Explorer refuses in a storage key (the class of `forbiddenCharsRegex`). */
  const Forbidden: set<char> := {
    '!', '"', '#', '$', '%', '&', '\'', '(', ')', '*', '+', ',', '/', '\\', ':', ';',
    '<', '=', '>', '?', '@', '[', ']', '^', '`', '{', '|', '}', '~'
  }

  /** `replace(forbiddenCharsRegex, '___')`: every forbidden character becomes three underscores. */
  function ReplaceForbidden(s: string): (r: string)
    ensures forall i :: 0 <= i < |r| ==> r[i] !in Forbidden
    ensures (forall i :: 0 <= i < |s| ==> s[i] !in Forbidden) ==> r == s
    ensures s != [] ==> r != [] && r[0] == if s[0] in Forbidden then '_' else s[0]
  {
    if s == [] then []
    else (if s[0] in Forbidden then "___" else [s[0]]) + ReplaceForbidden(s[1..])
  }

  /** One character is rewritten on its own: a forbidden one becomes '___', any other is kept. */
  lemma {:induction false} ReplaceForbiddenChar(c: char)
    ensures ReplaceForbidden([c]) == if c in Forbidden then "___" else [c]
  {
    assert [c][1..] == [];
  }

  /**
   * The rewrite works character by character: the result for `s + t` is the
   * result for `s` followed by the result for `t`. With `ReplaceForbiddenChar`
   * this fixes the result of every input.
   */
  lemma {:induction false} ReplaceForbiddenAppend(s: string, t: string)
    ensures ReplaceForbidden(s + t) == ReplaceForbidden(s) + ReplaceForbidden(t)
    decreases |s|
  {
    if s != [] {
      assert (s + t)[0] == s[0] && (s + t)[1..] == s[1..] + t;
      var head := if s[0] in Forbidden then "___" else [s[0]];
      var rest, tail := ReplaceForbidden(s[1..]), ReplaceForbidden(t);
      ReplaceForbiddenAppend(s[1..], t);
      assert ReplaceForbidden(s + t) == head + (rest + tail);
      assert ReplaceForbidden(s) == head + rest;
      assert head + (rest + tail) == (head + rest) + tail;
    } else {
      assert s + t == t;
    }
  }

  /**
   * `ieKeyFix` as written: `/^d/` puts '___' before a leading letter 'd',
   * then every forbidden character is replaced.
   */
  function IeKeyFix(key: string): (r: string)
    ensures forall i :: 0 <= i < |r| ==> r[i] !in Forbidden
  {
    ReplaceForbidden(if key != [] && key[0] == 'd' then "___" + key else key)
  }

  /**
   * The as-written fix lets a key that starts with a digit through
   * unchanged, which is the case its own comment says IE rejects, and
   * prefixes keys that merely start with the letter 'd'.
   */
  lemma IeKeyFixMissesLeadingDigit()
    ensures IeKeyFix("1a") == "1a" && IsDigit(IeKeyFix("1a")[0])
    ensures IeKeyFix("data") == "___data"
  {
    assert "1a"[0] != 'd' && "1a"[0] !in Forbidden && "1a"[1] !in Forbidden;
    var fixed := "___" + "data";
    assert fixed == "___data";
    assert forall i :: 0 <= i < |fixed| ==> fixed[i] !in Forbidden;
  }

  /**
   * What the as-written fix does to every key: '___' goes in front exactly
   * when the key starts with the letter 'd', and then each forbidden
   * character becomes '___' and every other character is kept.
   */
  lemma {:induction false} IeKeyFixRewrites(key: string)
    ensures key != [] && key[0] == 'd' ==> IeKeyFix(key) == "___" + ReplaceForbidden(key)
    ensures !(key != [] && key[0] == 'd') ==> IeKeyFix(key) == ReplaceForbidden(key)
  {
    if key != [] && key[0] == 'd' {
      ReplaceForbiddenAppend("___", key);
      assert ReplaceForbidden("___") == "___";
    }
  }

  /** `ieKeyFix` with the digit class `/^\d/` the comment describes. */
  function IeKeyFixIntended(key: string): (r: string)
    ensures forall i :: 0 <= i < |r| ==> r[i] !in Forbidden
  {
    ReplaceForbidden(if key != [] && IsDigit(key[0]) then "___" + key else key)
  }

  /**
   * The corrected fix gives a key that holds no forbidden character and
   * does not start with a digit; a key that is already acceptable is kept
   * as it is, so applying the fix twice changes nothing more.
   */
  lemma {:induction false} IeKeyFixIntendedSafe(key: string)
    ensures var r := IeKeyFixIntended(key);
            && (forall i :: 0 <= i < |r| ==> r[i] !in Forbidden)
            && (r != [] ==> !IsDigit(r[0]))
    ensures (forall i :: 0 <= i < |key| ==> key[i] !in Forbidden) && (key != [] ==> !IsDigit(key[0]))
            ==> IeKeyFixIntended(key) == key
    ensures IeKeyFixIntended(IeKeyFixIntended(key)) == IeKeyFixIntended(key)
  {
    var r := IeKeyFixIntended(key);
    assert r != [] ==> !IsDigit(r[0]);
    assert IeKeyFixIntended(r) == r;
  }

  // ---------------------------------------------------------------------
  // Runs of digits, shared by the re-indexing rewrites

  /** The length of the run of digits that starts at `i`. */
  function DigitRun(s: string, i: nat): (n: nat)
    requires i <= |s|
    ensures i + n <= |s|
    ensures forall j :: i <= j < i + n ==> IsDigit(s[j])
    ensures i + n == |s| || !IsDigit(s[i + n])
    decreases |s| - i
  {
    if i < |s| && IsDigit(s[i]) then 1 + DigitRun(s, i + 1) else 0
  }

  /** A run of `n` digits followed by a non-digit (or the end) is the digit run there. */
  lemma {:induction false} DigitRunIs(s: string, i: nat, n: nat)
    requires i + n <= |s|
    requires forall j :: i <= j < i + n ==> IsDigit(s[j])
    requires i + n == |s| || !IsDigit(s[i + n])
    ensures DigitRun(s, i) == n
    decreases n
  {
    if n > 0 {
      DigitRunIs(s, i + 1, n - 1);
    }
  }

  // ---------------------------------------------------------------------
  // name.replace(/\[[0-9]+\]/, '[' + boxIndex + ']')

  /** A `[digits]` group starts at `i`: '[' then at least one digit then ']'. */
  predicate GroupAt(s: string, i: nat)
    requires i <= |s|
  {
    i < |s| && s[i] == '[' && DigitRun(s, i + 1) > 0
    && i + 1 + DigitRun(s, i + 1) < |s| && s[i + 1 + DigitRun(s, i + 1)] == ']'
  }

  /** The leftmost `[digits]` group at or after `from`. */
  function FirstGroup(s: string, from: nat): (r: Option<nat>)
    requires from <= |s|
    ensures r.Some? ==> from <= r.value < |s| && GroupAt(s, r.value)
    ensures r.Some? ==> forall j :: from <= j < r.value ==> !GroupAt(s, j)
    ensures r.None? ==> forall j :: from <= j <= |s| ==> !GroupAt(s, j)
    decreases |s| - from
  {
    if from == |s| then None
    else if GroupAt(s, from) then Some(from)
    else FirstGroup(s, from + 1)
  }

  /** The field name with its first `[digits]` group renumbered to `[boxIndex]`. */
  function ReindexName(name: string, boxIndex: nat): (r: string)
    ensures FirstGroup(name, 0).None? ==> r == name
  {
    match FirstGroup(name, 0)
    case None => name
    case Some(i) => Splice(name[..i], Decimal(boxIndex), name[i + 2 + DigitRun(name, i + 1)..])
  }

  /**
   * Two strings that agree up to and including position `i`, where both
   * hold '[', have the same groups starting before `i`.
   */
  lemma {:induction false} GroupsBefore(s: string, t: string, i: nat, j: nat)
    requires i < |s| && i < |t| && s[i] == '['
    requires forall k :: 0 <= k <= i ==> s[k] == t[k]
    requires j < i
    ensures GroupAt(s, j) == GroupAt(t, j)
  {
    var n := DigitRun(s, j + 1);
    assert j + 1 + n <= i;
    DigitRunIs(t, j + 1, n);
  }

  /** `p + "[" + d + "]" + q`: the text `d` spliced in brackets between `p` and `q`. */
  function Splice(p: string, d: string, q: string): (r: string)
    ensures |r| == |p| + |d| + |q| + 2
    ensures r[..|p|] == p && r[|p|] == '[' && r[|p| + 1 + |d|] == ']' && r[|p| + 2 + |d|..] == q
    ensures forall k :: 0 <= k < |d| ==> r[|p| + 1 + k] == d[k]
  {
    var r := p + "[" + d + "]" + q;
    assert r[|p| + 2 + |d|..] == q;
    r
  }

  /** Splicing a non-empty run of digits in brackets makes a group at `|p|` whose digits are exactly those. */
  lemma {:induction false} SpliceGroup(p: string, d: string, q: string)
    requires |d| >= 1 && AllDigits(d)
    ensures GroupAt(Splice(p, d, q), |p|) && DigitRun(Splice(p, d, q), |p| + 1) == |d|
  {
    var r := Splice(p, d, q);
    var i := |p|;
    forall j | i + 1 <= j < i + 1 + |d|
      ensures IsDigit(r[j])
    {
      assert r[i + 1 + (j - i - 1)] == d[j - i - 1];
    }
    DigitRunIs(r, i + 1, |d|);
    var n := DigitRun(r, i + 1);
    assert r[i + 1 + n] == ']';
    assert GroupAt(r, i);
  }

  /** Splicing a group in place of the first group keeps it the first group. */
  lemma {:induction false} SpliceFirstGroup(name: string, i: nat, d: string, q: string)
    requires FirstGroup(name, 0) == Some(i)
    requires |d| >= 1 && AllDigits(d)
    ensures FirstGroup(Splice(name[..i], d, q), 0) == Some(i)
    ensures DigitRun(Splice(name[..i], d, q), i + 1) == |d|
  {
    var r := Splice(name[..i], d, q);
    SpliceGroup(name[..i], d, q);
    forall k | 0 <= k <= i
      ensures name[k] == r[k]
    {
      if k < i {
        assert r[k] == r[..i][k];
      }
    }
    forall j | 0 <= j < i
      ensures !GroupAt(r, j)
    {
      GroupsBefore(name, r, i, j);
    }
    FirstGroupIs(r, 0, i);
  }

  /**
   * Re-indexing rewrites only the first `[digits]` group: what comes
   * before and after it is kept, and the new `[boxIndex]` group is then the
   * first group of the result, at the same position. A name with no group
   * is unchanged.
   */
  lemma {:induction false} ReindexNameShape(name: string, boxIndex: nat)
    ensures FirstGroup(name, 0).None? ==> ReindexName(name, boxIndex) == name
    ensures FirstGroup(name, 0).Some? ==>
              var i := FirstGroup(name, 0).value;
              ReindexName(name, boxIndex) == Splice(name[..i], Decimal(boxIndex), name[i + 2 + DigitRun(name, i + 1)..])
    ensures FirstGroup(name, 0).Some? ==> FirstGroup(ReindexName(name, boxIndex), 0) == FirstGroup(name, 0)
    ensures FirstGroup(name, 0).Some? ==>
              DigitRun(ReindexName(name, boxIndex), FirstGroup(name, 0).value + 1) == |Decimal(boxIndex)|
  {
    if FirstGroup(name, 0).Some? {
      var i := FirstGroup(name, 0).value;
      var d := Decimal(boxIndex);
      var q := name[i + 2 + DigitRun(name, i + 1)..];
      var r := Splice(name[..i], d, q);
      assert ReindexName(name, boxIndex) == r;
      SpliceFirstGroup(name, i, d, q);
      assert FirstGroup(r, 0) == Some(i);
    }
  }

  /** `FirstGroup` finds a group with none before it. */
  lemma {:induction false} FirstGroupIs(s: string, from: nat, i: nat)
    requires from <= i < |s| && GroupAt(s, i)
    requires forall j :: from <= j < i ==> !GroupAt(s, j)
    ensures FirstGroup(s, from) == Some(i)
    decreases i - from
  {
    if from < i {
      FirstGroupIs(s, from + 1, i);
    }
  }

  /**
   * Re-indexing an already re-indexed name gives what re-indexing the
   * original would: the order of the sortable boxes is all that counts, and
   * repeating the same index changes nothing.
   */
  lemma {:induction false} ReindexNameTwice(name: string, a: nat, b: nat)
    ensures ReindexName(ReindexName(name, a), b) == ReindexName(name, b)
    ensures ReindexName(ReindexName(name, b), b) == ReindexName(name, b)
  {
    ReindexNameAgain(name, a, b);
    ReindexNameAgain(name, b, b);
  }

  lemma {:induction false} ReindexNameAgain(name: string, a: nat, b: nat)
    ensures ReindexName(ReindexName(name, a), b) == ReindexName(name, b)
  {
    ReindexNameShape(name, a);
    if FirstGroup(name, 0).Some? {
      var i := FirstGroup(name, 0).value;
      var r := ReindexName(name, a);
      var q := name[i + 2 + DigitRun(name, i + 1)..];
      assert ReindexName(r, b) == Splice(r[..i], Decimal(b), r[i + 2 + DigitRun(r, i + 1)..]);
    }
  }

  // ---------------------------------------------------------------------
  // name.replace(/[0-9]+/, boxIndex)

  /** The position of the first digit, or `|s|` when there is none. */
  function FirstDigit(s: string, from: nat): (i: nat)
    requires from <= |s|
    ensures from <= i <= |s|
    ensures forall j :: from <= j < i ==> !IsDigit(s[j])
    ensures i < |s| ==> IsDigit(s[i])
    decreases |s| - from
  {
    if from == |s| || IsDigit(s[from]) then from else FirstDigit(s, from + 1)
  }

  /** An `id` or `for` attribute with its first run of digits replaced by `boxIndex`. */
  function RenumberId(name: string, boxIndex: nat): (r: string)
    ensures FirstDigit(name, 0) == |name| ==> r == name
  {
    var i := FirstDigit(name, 0);
    if i == |name| then name
    else name[..i] + Decimal(boxIndex) + name[i + DigitRun(name, i)..]
  }

  /** `FirstDigit` finds a digit with none before it. */
  lemma {:induction false} FirstDigitIs(s: string, from: nat, i: nat)
    requires from <= i <= |s|
    requires forall j :: from <= j < i ==> !IsDigit(s[j])
    requires i < |s| ==> IsDigit(s[i])
    ensures FirstDigit(s, from) == i
    decreases i - from
  {
    if from < i {
      FirstDigitIs(s, from + 1, i);
    }
  }

  /**
   * `p + d + q` with `p` digit-free, `d` a non-empty run of digits and `q`
   * not starting with a digit: the first digit run is `d`, at `|p|`.
   */
  lemma {:induction false} SpliceRun(p: string, d: string, q: string)
    requires forall k :: 0 <= k < |p| ==> !IsDigit(p[k])
    requires |d| >= 1 && AllDigits(d)
    requires q == [] || !IsDigit(q[0])
    ensures var r := p + d + q;
            && FirstDigit(r, 0) == |p| && DigitRun(r, |p|) == |d|
            && r[..|p|] == p && r[|p|..|p| + |d|] == d && r[|p| + |d|..] == q
  {
    var r := p + d + q;
    assert forall k :: |p| <= k < |p| + |d| ==> r[k] == d[k - |p|];
    assert |p| + |d| < |r| ==> r[|p| + |d|] == q[0];
    DigitRunIs(r, |p|, |d|);
    FirstDigitIs(r, 0, |p|);
    assert r[|p|..|p| + |d|] == d;
    assert r[|p| + |d|..] == q;
  }

  /**
   * Renumbering replaces only the first run of digits: a name without
   * digits is unchanged; otherwise the text before and after the run is
   * kept and the run becomes the decimal `boxIndex`, which is then the
   * first run of the result. So renumbering again overrides the earlier
   * number and nothing else.
   */
  lemma {:induction false} RenumberIdShape(name: string, a: nat, b: nat)
    ensures FirstDigit(name, 0) == |name| ==> RenumberId(name, a) == name
    ensures FirstDigit(name, 0) < |name| ==>
              var i := FirstDigit(name, 0);
              var r := RenumberId(name, a);
              && r[..i] == name[..i]
              && FirstDigit(r, 0) == i
              && DigitRun(r, i) == |Decimal(a)|
              && r[i..i + |Decimal(a)|] == Decimal(a)
              && r[i + |Decimal(a)|..] == name[i + DigitRun(name, i)..]
    ensures RenumberId(RenumberId(name, a), b) == RenumberId(name, b)
  {
    if FirstDigit(name, 0) < |name| {
      RenumberIdParts(name, a);
      RenumberIdAgain(name, a, b);
    }
  }

  /** A renumbered name is the text before the first run, the new number, and the text after the old run. */
  lemma {:induction false} RenumberIdSplits(name: string, a: nat)
    requires FirstDigit(name, 0) < |name|
    ensures var i := FirstDigit(name, 0);
            RenumberId(name, a) == name[..i] + Decimal(a) + name[i + DigitRun(name, i)..]
  {
    var i := FirstDigit(name, 0);
    assert i != |name|;
  }

  /** The parts of a renumbered name, as `SpliceRun` finds them. */
  lemma {:induction false} RenumberIdParts(name: string, a: nat)
    requires FirstDigit(name, 0) < |name|
    ensures var i := FirstDigit(name, 0);
            var r := RenumberId(name, a);
            && r[..i] == name[..i]
            && FirstDigit(r, 0) == i
            && DigitRun(r, i) == |Decimal(a)|
            && r[i..i + |Decimal(a)|] == Decimal(a)
            && r[i + |Decimal(a)|..] == name[i + DigitRun(name, i)..]
  {
    var i := FirstDigit(name, 0);
    var p, d, q := name[..i], Decimal(a), name[i + DigitRun(name, i)..];
    var r := RenumberId(name, a);
    RenumberIdSplits(name, a);
    assert r == p + d + q;
    SpliceRun(p, d, q);
    assert r[..i] == p && r[i + |d|..] == q;
  }

  /** Renumbering a renumbered name only overrides the number written before. */
  lemma {:induction false} RenumberIdAgain(name: string, a: nat, b: nat)
    requires FirstDigit(name, 0) < |name|
    ensures RenumberId(RenumberId(name, a), b) == RenumberId(name, b)
  {
    var i := FirstDigit(name, 0);
    var p, d, q := name[..i], Decimal(a), name[i + DigitRun(name, i)..];
    var r := p + d + q;
    RenumberIdSplits(name, a);
    SpliceRun(p, d, q);
    RenumberIdSplits(r, b);
    RenumberIdSplits(name, b);
  }

  // ---------------------------------------------------------------------
  // html.replace(/\{id\}/g, id)

  /** The placeholder `{id}` starts at position `i`. */
  predicate PlaceholderAt(s: string, i: nat)
  {
    i + 4 <= |s| && s[i] == '{' && s[i + 1] == 'i' && s[i + 2] == 'd' && s[i + 3] == '}'
  }

  predicate StartsWithPlaceholder(s: string)
  {
    PlaceholderAt(s, 0)
  }

  /** The string holds `{id}` somewhere. */
  predicate HasPlaceholder(s: string)
  {
    exists i :: 0 <= i < |s| && PlaceholderAt(s, i)
  }

  /** The slide template with every `{id}`, scanning left to right, replaced by the slide count. */
  function FillTemplate(html: string, id: nat): (r: string)
    ensures '{' !in html ==> r == html
    decreases |html|
  {
    if StartsWithPlaceholder(html) then Decimal(id) + FillTemplate(html[4..], id)
    else if html == [] then []
    else [html[0]] + FillTemplate(html[1..], id)
  }

  /** A filled template that starts with a non-digit starts with the template's own first character. */
  lemma {:induction false} FilledStart(html: string, id: nat)
    requires FillTemplate(html, id) != [] && !IsDigit(FillTemplate(html, id)[0])
    ensures html != [] && !StartsWithPlaceholder(html)
    ensures FillTemplate(html, id) == [html[0]] + FillTemplate(html[1..], id)
  {
  }

  /** A filled template can start with "id}" only if the template itself does. */
  lemma {:induction false} FilledStartsWithRest(html: string, id: nat)
    ensures var r := FillTemplate(html, id);
            |r| >= 3 && r[0] == 'i' && r[1] == 'd' && r[2] == '}' ==>
              |html| >= 3 && html[0] == 'i' && html[1] == 'd' && html[2] == '}'
  {
    var r := FillTemplate(html, id);
    if |r| >= 3 && r[0] == 'i' && r[1] == 'd' && r[2] == '}' {
      FilledStart(html, id);
      var r1 := FillTemplate(html[1..], id);
      FilledStart(html[1..], id);
      var r2 := FillTemplate(html[2..], id);
      assert html[1..][1..] == html[2..];
      FilledStart(html[2..], id);
    }
  }

  /** After the substitution no `{id}` is left, even where replacements meet the surrounding text. */
  lemma {:induction false} NoPlaceholderLeft(html: string, id: nat)
    ensures !HasPlaceholder(FillTemplate(html, id))
    decreases |html|
  {
    var r := FillTemplate(html, id);
    if html == [] {
      return;
    }
    if StartsWithPlaceholder(html) {
      var d := Decimal(id);
      var rest := FillTemplate(html[4..], id);
      NoPlaceholderLeft(html[4..], id);
      assert r == d + rest;
      forall i: nat | i + 4 <= |r|
        ensures !PlaceholderAt(r, i)
      {
        if i < |d| {
          assert r[i] == d[i];
        } else {
          assert !PlaceholderAt(rest, i - |d|);
        }
      }
    } else {
      var rest := FillTemplate(html[1..], id);
      NoPlaceholderLeft(html[1..], id);
      assert r == [html[0]] + rest;
      forall i: nat | i + 4 <= |r|
        ensures !PlaceholderAt(r, i)
      {
        if i == 0 {
          FilledStartsWithRest(html[1..], id);
        } else {
          assert !PlaceholderAt(rest, i - 1);
        }
      }
    }
  }

  /** A template without `{id}` is left as it is. */
  lemma {:induction false} NoPlaceholderUnchanged(html: string, id: nat)
    requires !HasPlaceholder(html)
    ensures FillTemplate(html, id) == html
    decreases |html|
  {
    if html != [] {
      assert !PlaceholderAt(html, 0);
      forall i: nat | i + 4 <= |html[1..]|
        ensures !PlaceholderAt(html[1..], i)
      {
        assert !PlaceholderAt(html, i + 1);
      }
      NoPlaceholderUnchanged(html[1..], id);
    }
  }

  /** A text with no '{' in it passes through the substitution unchanged, whatever follows it. */
  lemma {:induction false} FillTemplatePlain(p: string, q: string, id: nat)
    requires '{' !in p
    ensures FillTemplate(p + q, id) == p + FillTemplate(q, id)
    decreases |p|
  {
    if p != [] {
      var h := p + q;
      assert p == [p[0]] + p[1..];
      assert h[0] == p[0] && h[1..] == p[1..] + q;
      assert !StartsWithPlaceholder(h);
      assert FillTemplate(h, id) == [p[0]] + FillTemplate(p[1..] + q, id);
      FillTemplatePlain(p[1..], q, id);
      assert [p[0]] + (p[1..] + FillTemplate(q, id)) == p + FillTemplate(q, id);
    } else {
      assert p + q == q;
    }
  }

  /**
   * Every `{id}` becomes the decimal slide count: scanning from the left,
   * the text up to the first placeholder is kept, the placeholder turns
   * into `String(id)`, and the rest is filled in the same way.
   */
  lemma {:induction false} FillTemplateReplaces(p: string, q: string, id: nat)
    requires '{' !in p
    ensures FillTemplate(p + "{id}" + q, id) == p + Decimal(id) + FillTemplate(q, id)
  {
    var h := "{id}" + q;
    assert p + "{id}" + q == p + h;
    assert StartsWithPlaceholder(h) && h[4..] == q;
    assert FillTemplate(h, id) == Decimal(id) + FillTemplate(q, id);
    FillTemplatePlain(p, h, id);
  }
}

=== FILE: admin_ui_open.dfy ===
/**
 * `CsUiOpen`, the admin page's record of which slide boxes are expanded:
 * a two-level table `slideshow -> key -> value` held in the field
 * `expandables` and changed in place. The script runs in strict mode, so
 * writing a property onto a primitive or onto null throws a TypeError.
 */
module AdminUiOpen {

  import opened Wrappers
  import opened AdminValues

  /** `get(slideshow, key)`: the stored value, or `false` when the slideshow or the key holds nothing. */
  function Toggle(table: Value, slideshow: string, key: string): (v: Value)
    ensures !Nullish(v)
    ensures v != Bool(false) ==> && table.Obj? && slideshow in table.members
                                 && table.members[slideshow].Obj? && key in table.members[slideshow].members
                                 && v == table.members[slideshow].members[key]
    ensures && table.Obj? && slideshow in table.members
            && table.members[slideshow].Obj? && key in table.members[slideshow].members
            && !Nullish(table.members[slideshow].members[key])
            ==> v == table.members[slideshow].members[key]
  {
    var v := Member(Member(table, slideshow), key);
    if Nullish(v) then Bool(false) else v
  }

  /**
   * The table after `set(slideshow, key, value)`: a slideshow entry that is
   * not an object (`typeof` other than 'object') is first replaced by `{}`;
   * then the value is stored under the key. Writing into a primitive table
   * or into a null entry throws.
   */
  function AfterSet(table: Value, slideshow: string, key: string, value: Value): (r: Result<Value, Thrown>)
    ensures r.Failure? <==> !table.Obj? || (slideshow in table.members && table.members[slideshow].Null?)
    ensures r.Success? ==> r.value.Obj? && r.value.members.Keys == table.members.Keys + {slideshow}
  {
    if !table.Obj? then Failure(TypeError)
    else
      var members := if TypeofObject(Member(table, slideshow)) then table.members
                     else table.members[slideshow := Obj(map[])];
      var inner := members[slideshow];
      if inner.Null? then Failure(TypeError)
      else Success(Obj(members[slideshow := Obj(inner.members[key := value])]))
  }

  /** The table after `remove(slideshow, key)`: the key is deleted when it holds something, and nothing changes otherwise. */
  function AfterRemove(table: Value, slideshow: string, key: string): (r: Value)
    ensures Member(table, slideshow).Obj? && !Nullish(Member(Member(table, slideshow), key)) ==>
              && r.Obj? && r.members.Keys == table.members.Keys
              && r.members[slideshow] == Obj(table.members[slideshow].members - {key})
    ensures !(Member(table, slideshow).Obj? && !Nullish(Member(Member(table, slideshow), key))) ==> r == table
  {
    var inner := Member(table, slideshow);
    if inner.Obj? && !Nullish(Member(inner, key)) then Obj(table.members[slideshow := Obj(inner.members - {key})])
    else table
  }

  class CsUiOpen {

    /** The table, in the format `object[slideshow_id][element_index]`. */
    var expandables: Value

    /** Falsy (missing) data starts an empty table; anything else is used as the table itself. */
    constructor (data: Value)
      ensures Falsy(data) ==> expandables == Obj(map[])
      ensures !Falsy(data) ==> expandables == data
    {
      if Falsy(data) {
        expandables := Obj(map[]);
      } else {
        expandables := data;
      }
    }

    /** `get`: the value stored for the slideshow and key, `false` when there is none. */
    method Get(slideshow: string, key: string) returns (v: Value)
      ensures v == Toggle(expandables, slideshow, key)
    {
      var inner := Member(expandables, slideshow);
      if !Nullish(inner) {
        var value := Member(inner, key);
        if !Nullish(value) {
          return value;
        }
      }
      return Bool(false);
    }

    /** `set`: stores the value under the slideshow and key, creating the slideshow's entry when needed. */
    method Set(slideshow: string, key: string, value: Value) returns (r: Outcome<Thrown>)
      modifies this
      ensures AfterSet(old(expandables), slideshow, key, value).Success? ==>
                r == Done && expandables == AfterSet(old(expandables), slideshow, key, value).value
      ensures AfterSet(old(expandables), slideshow, key, value).Failure? ==>
                r == Fail(TypeError) && expandables == old(expandables)
    {
      if !expandables.Obj? {
        return Fail(TypeError);
      }
      if !TypeofObject(Member(expandables, slideshow)) {
        expandables := Obj(expandables.members[slideshow := Obj(map[])]);
      }
      var inner := expandables.members[slideshow];
      if inner.Null? {
        return Fail(TypeError);
      }
      expandables := Obj(expandables.members[slideshow := Obj(inner.members[key := value])]);
      return Done;
    }

    /** `remove`: deletes the key from the slideshow's entry when it holds something. */
    method Remove(slideshow: string, key: string)
      modifies this
      ensures expandables == AfterRemove(old(expandables), slideshow, key)
    {
      var inner := Member(expandables, slideshow);
      if !Nullish(inner) {
        if !Nullish(Member(inner, key)) {
          expandables := Obj(expandables.members[slideshow := Obj(inner.members - {key})]);
        }
      }
    }

    /** `getAll`: the whole table. */
    method GetAll() returns (all: Value)
      ensures all == expandables
    {
      return expandables;
    }

    /** `clear`: an empty table. */
    method Clear()
      modifies this
      ensures expandables == Obj(map[])
      ensures forall slideshow, key :: Toggle(expandables, slideshow, key) == Bool(false)
    {
      expandables := Obj(map[]);
    }
  }

  /**
   * After a successful `set(s, k, v)`, `get(s, k)` returns `v` (or `false`
   * when `v` is null or undefined) and every other slideshow and key reads
   * as before.
   */
  lemma GetAfterSet(table: Value, slideshow: string, key: string, value: Value, otherShow: string, otherKey: string)
    requires AfterSet(table, slideshow, key, value).Success?
    ensures var t := AfterSet(table, slideshow, key, value).value;
            Toggle(t, slideshow, key) == if Nullish(value) then Bool(false) else value
    ensures var t := AfterSet(table, slideshow, key, value).value;
            (otherShow, otherKey) != (slideshow, key) ==> Toggle(t, otherShow, otherKey) == Toggle(table, otherShow, otherKey)
  {
    var t := AfterSet(table, slideshow, key, value).value;
    var inner := Member(table, slideshow);
    if (otherShow, otherKey) != (slideshow, key) {
      if otherShow == slideshow {
        assert Member(Member(t, otherShow), otherKey) == Member(inner, otherKey);
      } else {
        assert Member(t, otherShow) == Member(table, otherShow);
      }
    }
  }

  /** After `remove(s, k)`, `get(s, k)` is `false`, every other entry reads as before, and a key holding nothing makes it a no-op. */
  lemma GetAfterRemove(table: Value, slideshow: string, key: string, otherShow: string, otherKey: string)
    ensures Toggle(AfterRemove(table, slideshow, key), slideshow, key) == Bool(false)
    ensures (otherShow, otherKey) != (slideshow, key) ==>
              Toggle(AfterRemove(table, slideshow, key), otherShow, otherKey) == Toggle(table, otherShow, otherKey)
    ensures Nullish(Member(Member(table, slideshow), key)) ==> AfterRemove(table, slideshow, key) == table
  {
    var t := AfterRemove(table, slideshow, key);
    if (otherShow, otherKey) != (slideshow, key) && t != table {
      if otherShow == slideshow {
        assert Member(Member(t, otherShow), otherKey) == Member(Member(table, otherShow), otherKey);
      } else {
        assert Member(t, otherShow) == Member(table, otherShow);
      }
    }
  }

  /** `set` followed by `remove` of the same slideshow and key leaves `get` at `false`. */
  lemma RemoveUndoesSet(table: Value, slideshow: string, key: string, value: Value)
    requires AfterSet(table, slideshow, key, value).Success?
    ensures Toggle(AfterRemove(AfterSet(table, slideshow, key, value).value, slideshow, key), slideshow, key) == Bool(false)
  {
    GetAfterRemove(AfterSet(table, slideshow, key, value).value, slideshow, key, slideshow, key);
  }
}

=== FILE: admin_values.dfy ===
/**
 * JavaScript values as the admin script's helpers see them: the JSON-like
 * values kept in localStorage and in the slide-toggle table, with the few
 * language rules the helpers depend on (loose `== null`, truthiness,
 * `typeof`, property lookup, and the JSON round trip `store` performs).
 */
module AdminValues {

  /** A JavaScript value; objects are plain string-keyed records. */
  datatype Value =
    | Undefined
    | Null
    | Bool(b: bool)
    | Num(n: real)
    | Str(s: string)
    | Obj(members: map<string, Value>)

  /** An exception the script can raise; only TypeError arises in the modelled code. */
  datatype Thrown = TypeError

  /** `v == null` (equivalently `v == undefined`): loose equality lumps the two together. */
  predicate Nullish(v: Value)
  {
    v == Undefined || v == Null
  }

  /** `!v`: undefined, null, false, 0 and the empty string. */
  predicate Falsy(v: Value)
  {
    match v
    case Undefined => true
    case Null => true
    case Bool(b) => !b
    case Num(n) => n == 0.0
    case Str(s) => s == ""
    case Obj(_) => false
  }

  /** `typeof v === 'object'`, which also holds for `null`. */
  predicate TypeofObject(v: Value)
  {
    v.Null? || v.Obj?
  }

  /**
   * `v[key]` on a value that is not null or undefined: an object's member,
   * and undefined when it has none. Primitives carry no members here.
   */
  function Member(v: Value, key: string): (r: Value)
    ensures v.Obj? && key in v.members ==> r == v.members[key]
    ensures !v.Obj? || key !in v.members ==> r == Undefined
  {
    if v.Obj? && key in v.members then v.members[key] else Undefined
  }

  /**
   * `JSON.parse(JSON.stringify(v))` for a value other than undefined: members
   * holding undefined are dropped, at every depth.
   */
  function Jsonify(v: Value): (r: Value)
    ensures r.Undefined? <==> v.Undefined?
    ensures r.Obj? <==> v.Obj?
    ensures !v.Obj? ==> r == v
    ensures v.Obj? ==> r.members.Keys == set k | k in v.members && v.members[k] != Undefined
  {
    match v
    case Obj(m) => Obj(map k | k in m && m[k] != Undefined :: Jsonify(m[k]))
    case _ => v
  }

  /** A value JSON can carry unchanged: no undefined member at any depth. */
  predicate JsonClean(v: Value)
  {
    match v
    case Undefined => false
    case Obj(m) => forall k | k in m :: JsonClean(m[k])
    case _ => true
  }

  /** The JSON round trip yields a clean value, and a clean value survives it unchanged. */
  lemma {:induction false} JsonifyClean(v: Value)
    requires v != Undefined
    ensures JsonClean(Jsonify(v))
    ensures JsonClean(v) ==> Jsonify(v) == v
  {
    match v
    case Obj(m) =>
      forall k | k in m && m[k] != Undefined
        ensures JsonClean(Jsonify(m[k]))
        ensures JsonClean(m[k]) ==> Jsonify(m[k]) == m[k]
      {
        JsonifyClean(m[k]);
      }
      if JsonClean(v) {
        var r := Jsonify(v).members;
        assert forall k | k in m :: JsonClean(m[k]);
        assert forall k | k in m :: m[k] != Undefined;
        assert r.Keys == m.Keys;
        assert forall k | k in m :: r[k] == m[k];
        assert r == m;
      }
    case _ =>
  }

  /** A second JSON round trip changes nothing. */
  lemma JsonifyIdempotent(v: Value)
    requires v != Undefined
    ensures Jsonify(Jsonify(v)) == Jsonify(v)
  {
    JsonifyClean(v);
    JsonifyClean(Jsonify(v));
  }
}

=== FILE: grafika.dfy ===
/**
 * Grafika's factory (Grafika.php): picking the first available editor from
 * an ordered list of names and creating editors and images with it. Whether
 * an editor's PHP extension is loaded is the input `available`.
 */
module Grafika {

  import opened Wrappers
  import opened GrafikaTypes

  /** The two editor implementations. */
  datatype Backend = ImagickBackend | GdBackend

  /** The list `detectAvailableEditor` tries when given none. */
  const DefaultEditors: seq<string> := ["Imagick", "Gd"]

  /** The editor a name is probed with: exactly "Imagick" selects Imagick, every other name GD. */
  function EditorFor(name: string): (b: Backend)
    ensures b == ImagickBackend <==> name == "Imagick"
  {
    if name == "Imagick" then ImagickBackend else GdBackend
  }

  /**
   * `detectAvailableEditor`: the first name in the list whose editor is
   * available; 'No supported editor.' when there is none.
   */
  function DetectAvailableEditor(available: Backend -> bool, editorList: seq<string> := DefaultEditors): (r: Result<string, Error>)
    ensures r.Success? ==> exists i :: 0 <= i < |editorList| && editorList[i] == r.value && available(EditorFor(editorList[i]))
                                   && forall j :: 0 <= j < i ==> !available(EditorFor(editorList[j]))
    ensures r.Failure? <==> forall i :: 0 <= i < |editorList| ==> !available(EditorFor(editorList[i]))
    ensures r.Failure? ==> r.error == NoSupportedEditor
  {
    if editorList == [] then Failure(NoSupportedEditor)
    else if available(EditorFor(editorList[0])) then Success(editorList[0])
    else
      var r := DetectAvailableEditor(available, editorList[1..]);
      assert forall i :: 1 <= i < |editorList| ==> editorList[i] == editorList[1..][i - 1];
      if r.Success? then
        var k :| 0 <= k < |editorList[1..]| && editorList[1..][k] == r.value && available(EditorFor(editorList[1..][k]))
                 && forall j :: 0 <= j < k ==> !available(EditorFor(editorList[1..][j]));
        assert editorList[k + 1] == r.value;
        r
      else r
  }

  /** `createEditor`: an editor of the backend whose name was detected. */
  function CreateEditor(available: Backend -> bool, editorList: seq<string> := DefaultEditors): (r: Result<Backend, Error>)
    ensures r.Success? ==> available(r.value)
    ensures r.Success? <==> DetectAvailableEditor(available, editorList).Success?
    ensures r.Success? ==> (r.value == ImagickBackend <==> DetectAvailableEditor(available, editorList).value == "Imagick")
    ensures r.Failure? ==> r.error == NoSupportedEditor
  {
    match DetectAvailableEditor(available, editorList)
    case Failure(e) => Failure(e)
    case Success(name) => Success(if name == "Imagick" then ImagickBackend else GdBackend)
  }

  /** What the factory asks a backend's Image class for: an image read from a file, or a blank one. */
  datatype ImageRequest =
    | FromFile(backend: Backend, imageFile: string)
    | Blank(backend: Backend, width: int, height: int)

  /** `createImage`: the image file opened by the image class of the default editor detected. */
  function CreateImage(available: Backend -> bool, imageFile: string): (r: Result<ImageRequest, Error>)
    ensures r.Failure? <==> CreateEditor(available).Failure?
    ensures r.Success? ==> r.value == FromFile(CreateEditor(available).value, imageFile)
  {
    match DetectAvailableEditor(available)
    case Failure(e) => Failure(e)
    case Success(name) => Success(FromFile(if name == "Imagick" then ImagickBackend else GdBackend, imageFile))
  }

  /** `createBlankImage`: a blank image, 1x1 unless a size is given, from the default editor detected. */
  function CreateBlankImage(available: Backend -> bool, width: int := 1, height: int := 1): (r: Result<ImageRequest, Error>)
    ensures r.Failure? <==> CreateEditor(available).Failure?
    ensures r.Success? ==> r.value == Blank(CreateEditor(available).value, width, height)
  {
    match DetectAvailableEditor(available)
    case Failure(e) => Failure(e)
    case Success(name) => Success(Blank(if name == "Imagick" then ImagickBackend else GdBackend, width, height))
  }

  /**
   * With the default order, Imagick wins whenever it is available, GD is
   * used only when Imagick is not, and with neither there is no editor.
   */
  lemma DefaultOrderPrefersImagick(available: Backend -> bool)
    ensures available(ImagickBackend) ==> CreateEditor(available) == Success(ImagickBackend)
    ensures !available(ImagickBackend) && available(GdBackend) ==> CreateEditor(available) == Success(GdBackend)
    ensures !available(ImagickBackend) && !available(GdBackend) ==> CreateEditor(available) == Failure(NoSupportedEditor)
    ensures CreateBlankImage(available).Success? ==>
              CreateBlankImage(available).value.width == 1 && CreateBlankImage(available).value.height == 1
  {
    assert DefaultEditors[1..] == ["Gd"];
    assert ["Gd"][1..] == [];
  }

  /**
   * Moving an available editor's name to the front of the list makes it
   * the one detected: earlier entries take precedence.
   */
  lemma EarlierEntryWins(available: Backend -> bool, name: string, rest: seq<string>)
    requires available(EditorFor(name))
    ensures DetectAvailableEditor(available, [name] + rest) == Success(name)
  {
  }

  /** Names the list holds but that are unavailable are skipped: prepending them changes nothing. */
  lemma {:induction false} UnavailablePrefixSkipped(available: Backend -> bool, skipped: seq<string>, rest: seq<string>)
    requires forall i :: 0 <= i < |skipped| ==> !available(EditorFor(skipped[i]))
    ensures DetectAvailableEditor(available, skipped + rest) == DetectAvailableEditor(available, rest)
  {
    if skipped == [] {
      assert skipped + rest == rest;
    } else {
      assert (skipped + rest)[0] == skipped[0];
      assert (skipped + rest)[1..] == skipped[1..] + rest;
      UnavailablePrefixSkipped(available, skipped[1..], rest);
    }
  }
}

=== FILE: grafika_types.dfy ===
/**
 * The values the Grafika image layer passes around: pixels, images, image
 * types, the exceptions its methods throw, and the native Imagick library,
 * which the model treats as a record of opaque functions.
 */
module GrafikaTypes {

  import opened Wrappers

  /** One colour channel as `ImagickPixel::getColor()` reports it (0..255). */
  type Channel = c: int | 0 <= c <= 255

  datatype Rgba = Rgba(r: Channel, g: Channel, b: Channel, a: Channel)

  /** A pixel grid, row-major: `pixels[y][x]` is the pixel at column x of row y. */
  type Raster = seq<seq<Rgba>>

  /** `pixels` has exactly `rows` rows of `columns` pixels each. */
  predicate IsGrid(pixels: Raster, columns: nat, rows: nat)
  {
    |pixels| == rows && forall y :: 0 <= y < rows ==> |pixels[y]| == columns
  }

  /** The `ImageType` constants. */
  datatype ImageType = Jpeg | Gif | Png | Unknown

  /**
   * The native `Imagick` object an image wraps. Resizing (except for GIF),
   * cropping, compositing, the repaints and `clear` change its pixels in
   * place, so every image record holding the same core sees the change.
   */
  class Core {
    var pixels: Raster

    constructor (pixels: Raster)
      ensures this.pixels == pixels
    {
      this.pixels := pixels;
    }
  }

  /**
   * An Imagick `Image`: the native core it wraps, the file it came from,
   * the width and height it was built with, and its type (`getType()`).
   * Width and height are PHP numbers, which the resize modes may leave
   * fractional. The record never changes; the core may.
   */
  datatype Image = Image(core: Core, file: string, width: real, height: real, imageType: ImageType)

  /** What an image shows at one moment: its core's pixels and its record. */
  datatype Picture = Picture(pixels: Raster, file: string, width: real, height: real, imageType: ImageType)

  /** The picture an image shows now. */
  function View(img: Image): (p: Picture)
    reads img.core
    ensures p.pixels == img.core.pixels && p.width == img.width && p.height == img.height
    ensures p.file == img.file && p.imageType == img.imageType
  {
    Picture(img.core.pixels, img.file, img.width, img.height, img.imageType)
  }

  /** The resampling filter `_resize` asks the native library for. */
  datatype Filter = Box | Lanczos

  /** The native calls that repaint an image in place without resizing it. */
  datatype Paint =
    | FloodFill(color: string, x: int, y: int)
    | Modulate(brightness: int, saturation: int, hue: int)
    | SetOpacity(level: real)
    | RotateBy(background: string, degrees: real)
    | Annotate(text: string, size: int, x: int, y: int, angle: real, color: string, font: Option<string>)

  /**
   * The native Imagick library. Its pixel work (resampling filters, cropping,
   * compositing, painting) is foreign code: the model only passes it the
   * arguments the editor computes and keeps what it hands back.
   */
  datatype Imagick = Imagick(
    resizeImage: (Raster, int, int, Filter) -> Raster,
    cropImage: (Raster, int, int, int, int) -> Raster,
    compositeImage: (Raster, Raster, int, int) -> Raster,
    paint: (Raster, Paint) -> Raster)

  /** What the image layer throws. */
  datatype Error =
    | NoImageToEdit
    | CouldNotOpen
    | InvalidResizeMode(mode: string)
    | NoSupportedEditor
    | CallOnNull(member: string)
    | LoadFailed(message: string)
    | EmptyCore

  /** The exception message for each error, as the source spells it. */
  function Message(e: Error): string
  {
    match e
    case NoImageToEdit => "No image to edit."
    case CouldNotOpen => "Could not open image."
    case InvalidResizeMode(mode) => "Invalid resize mode \"" + mode + "\"."
    case NoSupportedEditor => "No supported editor."
    case CallOnNull(member) => "Call to a member function " + member + "() on null"
    case LoadFailed(message) => message
    case EmptyCore => "Can not process empty Imagick object"
  }
}

=== FILE: imagick_editor.dfy ===
/**
 * The Imagick image editor (Editor.php): one mutable field, `image`, which
 * is empty until an image is opened, and the operations that read it,
 * replace it, or hand its native core to the Imagick library with
 * arguments the editor computes.
 */
module ImagickEditor {

  import opened Wrappers
  import opened GrafikaTypes
  import opened ImagickGeometry
  import opened ImagickHash
  import opened ImagickFiles

  /** What `open` may be given: an image, a path, or anything else. */
  datatype Target = ImageTarget(image: Image) | PathTarget(path: string) | OtherTarget

  /**
   * The `$width` / `$height` arguments of `overlay`, by what the source
   * asks of them:
   * - `Falsy`: null, false, 0, 0.0, '' or '0';
   * - `Numeric`: any other number or numeric string, such as 40, 0.5,
   *   '0.0' or '00', which is truthy even when its value is zero;
   * - `Percent`: a non-numeric string holding '%', with its leading
   *   integer (`intval`);
   * - `Text`: any other truthy value.
   */
  datatype Extent = Falsy | Numeric(v: real) | Percent(p: int) | Text

  /** PHP truthiness of an extent. */
  predicate Truthy(e: Extent)
  {
    !e.Falsy?
  }

  /** The file write `save` ends with: all frames (GIF), PNG, or the JPEG path for every other type. */
  datatype Write =
    | WriteFrames(file: string)
    | WritePng(file: string)
    | WriteJpeg(file: string, format: ImageType, quality: int, interlace: bool)

  /** The resize modes `resize` accepts. */
  const ResizeModes: set<string> := {"exact", "fill", "exactWidth", "exactHeight", "fit"}

  /** `_resize` uses a box filter on (coalesced) GIF frames and Lanczos otherwise. */
  function FilterFor(t: ImageType): Filter
  {
    if t == Gif then Box else Lanczos
  }

  /** What `_resize(width, height)` shows: the resampled pixels, the same file and type, the given size. */
  function Resized(lib: Imagick, pic: Picture, width: real, height: real): (r: Picture)
    ensures r.width == width && r.height == height
    ensures r.file == pic.file && r.imageType == pic.imageType
  {
    Picture(lib.resizeImage(pic.pixels, Trunc(width), Trunc(height), FilterFor(pic.imageType)),
            pic.file, width, height, pic.imageType)
  }

  /**
   * What `crop` shows: the pixels are cropped at the anchored offsets, but
   * the Image record is not rebuilt, so the recorded width, height, file
   * and type are the old ones.
   */
  function Cropped(lib: Imagick, pic: Picture, cropWidth: int, cropHeight: int, cropX: Anchor, cropY: Anchor): (r: Picture)
    ensures r.width == pic.width && r.height == pic.height
    ensures r.file == pic.file && r.imageType == pic.imageType
  {
    var x := Place(cropX, "left", "right", pic.width, cropWidth as real);
    var y := Place(cropY, "top", "bottom", pic.height, cropHeight as real);
    pic.(pixels := lib.cropImage(pic.pixels, cropWidth, cropHeight, Trunc(x), Trunc(y)))
  }

  /** What a native repaint that keeps the size shows. */
  function Painted(lib: Imagick, pic: Picture, p: Paint): Picture
  {
    pic.(pixels := lib.paint(pic.pixels, p))
  }

  /** What `resizeFit` leaves. */
  function FitResized(lib: Imagick, pic: Picture, newWidth: real, newHeight: real): (r: Picture)
    requires pic.width != 0.0 && pic.height != 0.0
    ensures r.width == newWidth || r.height == newHeight
    ensures r.file == pic.file && r.imageType == pic.imageType
  {
    var s := FitSize(pic.width, pic.height, newWidth, newHeight);
    Resized(lib, pic, s.width, s.height)
  }

  /** What `resizeFill` leaves: resized to cover the box, then centre-cropped to it. */
  function FillResized(lib: Imagick, pic: Picture, newWidth: int, newHeight: int): (r: Picture)
    requires pic.width != 0.0 && pic.height != 0.0
    ensures r.width == newWidth as real || r.height == newHeight as real
    ensures r.file == pic.file && r.imageType == pic.imageType
  {
    var s := FillSize(pic.width, pic.height, newWidth as real, newHeight as real);
    Cropped(lib, Resized(lib, pic, s.width, s.height), newWidth, newHeight, Word("center"), Word("center"))
  }

  /** What `resizeExactWidth` leaves. */
  function ExactWidthResized(lib: Imagick, pic: Picture, newWidth: int): (r: Picture)
    requires pic.width != 0.0 && pic.height != 0.0
    ensures r.width == newWidth as real && NearAspect(Size(r.width, r.height), pic.width, pic.height)
    ensures r.file == pic.file && r.imageType == pic.imageType
  {
    var s := ExactWidthSize(pic.width, pic.height, newWidth as real);
    var r := Resized(lib, pic, s.width, s.height);
    assert Size(r.width, r.height) == s;
    r
  }

  /** What `resizeExactHeight` leaves. */
  function ExactHeightResized(lib: Imagick, pic: Picture, newHeight: int): (r: Picture)
    requires pic.height != 0.0
    ensures r.height == newHeight as real && r.width * pic.height == r.height * pic.width
    ensures r.file == pic.file && r.imageType == pic.imageType
  {
    var s := ExactHeightSize(pic.width, pic.height, newHeight as real);
    Resized(lib, pic, s.width, s.height)
  }

  /** Whether `mode` computes the image's aspect ratio, dividing by its height. */
  predicate UsesRatio(mode: string)
  {
    mode in {"fill", "exactWidth", "exactHeight", "fit"}
  }

  /** Whether `mode` also divides by that ratio, and so by the image's width. */
  predicate DividesByRatio(mode: string)
  {
    mode in {"fill", "exactWidth", "fit"}
  }

  /**
   * The size one truthy extent asks for: a number or numeric string cast
   * with `(int)`, a percentage of the base image's side, and the overlay's
   * own side for anything else.
   */
  function ExtentPixels(e: Extent, baseSide: real, ownSide: real): (n: real)
    ensures e.Numeric? ==> n == Trunc(e.v) as real
    ensures e.Numeric? && 0.0 <= e.v < 1.0 ==> n == 0.0
    ensures e.Percent? ==> n * 100.0 == e.p as real * baseSide
    ensures e.Percent? && e.p == 100 ==> n == baseSide
    ensures e.Text? || e.Falsy? ==> n == ownSide
  {
    match e
    case Numeric(v) => Trunc(v) as real
    case Percent(p) => p as real / 100.0 * baseSide
    case _ => ownSide
  }

  /** The overlay as `overlay` composites it: fitted into the requested extent when both are truthy. */
  function SizedOverlay(lib: Imagick, base: Picture, overlay: Picture, width: Extent, height: Extent): (r: Picture)
    requires Truthy(width) && Truthy(height) ==> overlay.width != 0.0 && overlay.height != 0.0
    ensures !(Truthy(width) && Truthy(height)) ==> r == overlay
    ensures r.file == overlay.file && r.imageType == overlay.imageType
  {
    if Truthy(width) && Truthy(height) then
      FitResized(lib, overlay, ExtentPixels(width, base.width, overlay.width),
                 ExtentPixels(height, base.height, overlay.height))
    else overlay
  }

  /**
   * Whether `overlay` resizes the caller's overlay core in place: both
   * extents are truthy and the overlay is not a GIF (a GIF is resized into
   * a new core).
   */
  predicate ResizesOverlayInPlace(overlay: Picture, width: Extent, height: Extent)
  {
    Truthy(width) && Truthy(height) && overlay.imageType != Gif
  }

  /**
   * What `overlay` leaves: the sized overlay composited over the base at
   * the anchored offsets, which are computed from the sized overlay's
   * recorded size. When the base and the overlay share one core that was
   * resized in place, the base is the resized one too.
   */
  function Overlaid(lib: Imagick, base: Picture, overlay: Picture, xPos: Anchor, yPos: Anchor,
                    width: Extent, height: Extent, shared: bool): (r: Picture)
    requires Truthy(width) && Truthy(height) ==> overlay.width != 0.0 && overlay.height != 0.0
    ensures r.width == base.width && r.height == base.height
    ensures r.file == base.file && r.imageType == base.imageType
  {
    var top := SizedOverlay(lib, base, overlay, width, height);
    var under := if shared && ResizesOverlayInPlace(overlay, width, height) then top.pixels else base.pixels;
    base.(pixels := lib.compositeImage(under, top.pixels, Trunc(Place(xPos, "left", "right", base.width, top.width)),
                                       Trunc(Place(yPos, "top", "bottom", base.height, top.height))))
  }

  /** A truthy extent whose value truncates to zero, such as '0.0' or 0.5, asks `resizeFit` for a zero side. */
  lemma TruthyZeroExtent(lib: Imagick, base: Picture, overlay: Picture, v: real, height: Extent)
    requires 0.0 <= v < 1.0 && Truthy(height)
    requires overlay.width != 0.0 && overlay.height != 0.0
    ensures Truthy(Numeric(v))
    ensures SizedOverlay(lib, base, overlay, Numeric(v), height)
            == FitResized(lib, overlay, 0.0, ExtentPixels(height, base.height, overlay.height))
  {
  }

  /** The type `save` writes: the one asked for, else the file extension's, else the image's own. */
  function SaveType(requested: Option<ImageType>, file: string, own: ImageType): (t: ImageType)
    ensures requested.Some? ==> t == requested.value
    ensures requested.None? && TypeFromFileName(file) != Unknown ==> t == TypeFromFileName(file)
    ensures requested.None? && TypeFromFileName(file) == Unknown ==> t == own
  {
    if requested.Some? then requested.value
    else
      var guess := TypeFromFileName(file);
      if guess == Unknown then own else guess
  }

  /**
   * A core holding an image: Imagick images have at least one row and one
   * column, while a core emptied by `clear()` has none.
   */
  predicate HoldsImage(p: Raster)
  {
    |p| >= 1 && |p[0]| >= 1
  }

  /**
   * The one resample `_differenceHash` relies on: an image resized to
   * exactly 9x8 (`resizeImage` with best fit off, either filter) has 9
   * columns and 8 rows.
   */
  ghost predicate ResizesToThumb(lib: Imagick)
  {
    forall p: Raster, f: Filter | HoldsImage(p) ::
      IsGrid(lib.resizeImage(p, ThumbWidth, ThumbHeight, f), ThumbWidth, ThumbHeight)
  }

  /** The 9x8 grid `_differenceHash` reads: the picture resized exactly to 9x8. */
  function Thumbnail(lib: Imagick, pic: Picture): (t: Raster)
    ensures ResizesToThumb(lib) && HoldsImage(pic.pixels) ==> IsGrid(t, ThumbWidth, ThumbHeight) && HoldsImage(t)
  {
    Resized(lib, pic, ThumbWidth as real, ThumbHeight as real).pixels
  }

  /**
   * The pixels `_differenceHash` leaves in the core it was given when it
   * succeeds: the thumbnail, since `_resize` works in place, except for a
   * GIF, which is resized into a new core.
   */
  function HashedPixels(lib: Imagick, pic: Picture): (r: Raster)
    ensures pic.imageType == Gif ==> r == pic.pixels
    ensures pic.imageType != Gif && ResizesToThumb(lib) && HoldsImage(pic.pixels) ==> IsGrid(r, ThumbWidth, ThumbHeight)
    ensures ResizesToThumb(lib) && HoldsImage(pic.pixels) ==> HoldsImage(r)
  {
    if pic.imageType == Gif then pic.pixels else Thumbnail(lib, pic)
  }

  /**
   * The second image as `compare` hashes it: when it shares its core with
   * the first one, hashing the first has already left its mark there.
   */
  function SecondHashed(lib: Imagick, first: Picture, second: Picture, shared: bool): (r: Picture)
    ensures !shared ==> r == second
    ensures shared && ResizesToThumb(lib) && HoldsImage(first.pixels) ==> HoldsImage(r.pixels)
    ensures r.width == second.width && r.height == second.height
    ensures r.file == second.file && r.imageType == second.imageType
  {
    if shared then second.(pixels := HashedPixels(lib, first)) else second
  }

  /**
   * What `compare` reports for two pictures, given whether they share one
   * core: the Hamming distance of their difference hashes, or the throw of
   * resampling an empty core.
   */
  function CompareDistance(lib: Imagick, first: Picture, second: Picture, shared: bool): (r: Result<nat, Error>)
    requires ResizesToThumb(lib)
    ensures r.Failure? <==> !HoldsImage(first.pixels) || (!shared && !HoldsImage(second.pixels))
    ensures r.Failure? ==> r.error == EmptyCore
    ensures r.Success? ==> r.value <= 64
  {
    if !HoldsImage(first.pixels) then Failure(EmptyCore)
    else
      var again := SecondHashed(lib, first, second, shared);
      if !HoldsImage(again.pixels) then Failure(EmptyCore)
      else Success(Hamming(DHash(Thumbnail(lib, first)), DHash(Thumbnail(lib, again))))
  }

  /**
   * What `equal` decides: the same recorded width and height, and along
   * every row of the first picture, the same red, green and blue as the
   * second picture at that position.
   */
  predicate SameImage(a: Picture, b: Picture)
    requires a.width == b.width && a.height == b.height ==> Reaches(a.pixels, b.pixels)
    ensures SameImage(a, b) ==> a.width == b.width && a.height == b.height
  {
    a.width == b.width && a.height == b.height && SameRgb(a.pixels, b.pixels)
  }

  class Editor {

    /** The image being edited; `None` until one is opened (PHP's `null`). */
    var image: Option<Image>

    /** The native library the editor hands its pixel work to. */
    const lib: Imagick

    constructor (lib: Imagick)
      ensures image == None && this.lib == lib
    {
      this.lib := lib;
      image := None;
    }

    /** The core of the image being edited: the object the editing methods change in place. */
    function Cores(): set<Core>
      reads this
    {
      if image.Some? then {image.value.core} else {}
    }

    /** What the image being edited shows now, if there is one. */
    function Current(): Option<Picture>
      reads this, Cores()
    {
      if image.Some? then Some(View(image.value)) else None
    }

    /** `_imageCheck`: throws 'No image to edit.' exactly when no image is loaded. */
    method ImageCheck() returns (r: Outcome<Error>)
      ensures r.Fail? <==> image.None?
      ensures r.Fail? ==> r.error == NoImageToEdit
    {
      if image.None? {
        return Fail(NoImageToEdit);
      }
      return Done;
    }

    /** `openImage`: the given image, and so its core, becomes the one being edited. */
    method OpenImage(img: Image)
      modifies this
      ensures image == Some(img)
    {
      image := Some(img);
    }

    /** `setImage`: the same as `openImage`. */
    method SetImage(img: Image)
      modifies this
      ensures image == Some(img)
    {
      image := Some(img);
    }

    /**
     * `openFile`: the picture `load` decodes from the path becomes the one
     * being edited, in a new core; when loading throws, the editor is
     * unchanged.
     */
    method OpenFile(path: string, load: string -> Result<Picture, string>) returns (r: Outcome<Error>)
      modifies this
      ensures load(path).Success? ==> r == Done && image.Some? && fresh(image.value.core)
                                      && Current() == Some(load(path).value)
      ensures load(path).Failure? ==> r == Fail(LoadFailed(load(path).error)) && image == old(image)
    {
      match load(path)
      case Success(pic) =>
        var core := new Core(pic.pixels);
        image := Some(Image(core, pic.file, pic.width, pic.height, pic.imageType));
        return Done;
      case Failure(message) =>
        return Fail(LoadFailed(message));
    }

    /** `open`: an image or a path is opened; anything else throws 'Could not open image.'. */
    method Open(target: Target, load: string -> Result<Picture, string>) returns (r: Outcome<Error>)
      modifies this
      ensures target.ImageTarget? ==> r == Done && image == Some(target.image)
      ensures target.PathTarget? && load(target.path).Success? ==>
                r == Done && image.Some? && fresh(image.value.core) && Current() == Some(load(target.path).value)
      ensures target.PathTarget? && load(target.path).Failure? ==>
                r == Fail(LoadFailed(load(target.path).error)) && image == old(image)
      ensures target.OtherTarget? ==> r == Fail(CouldNotOpen) && image == old(image)
    {
      match target
      case ImageTarget(img) =>
        OpenImage(img);
        return Done;
      case PathTarget(path) =>
        r := OpenFile(path, load);
      case OtherTarget =>
        return Fail(CouldNotOpen);
    }

    /**
     * `free`: clears the native core of a loaded image, which leaves it
     * with no pixels, but never resets the field (the branch that assigns
     * `null` runs only when it is already `null`).
     */
    method Free()
      modifies this, Cores()
      ensures image == old(image)
      ensures image.Some? ==> image.value.core.pixels == []
    {
      if image.Some? {
        image.value.core.pixels := [];
      } else {
        image := None;
      }
    }

    /**
     * `_resize`: with an image loaded, the image reports exactly the given
     * width and height and keeps its file and type. A GIF's frames are
     * resampled into a new core; any other image's core is resampled in
     * place, so every record sharing it sees the new pixels. Without an
     * image, 'No image to edit.'.
     */
    method ResizeTo(newWidth: real, newHeight: real) returns (r: Outcome<Error>)
      modifies this, Cores()
      ensures old(image).None? ==> r == Fail(NoImageToEdit) && image == old(image)
      ensures old(image).Some? ==> r == Done && image.Some?
                                   && Current() == Some(Resized(lib, old(Current()).value, newWidth, newHeight))
      ensures old(image).Some? && old(image).value.imageType != Gif ==> image.value.core == old(image).value.core
      ensures old(image).Some? && old(image).value.imageType == Gif ==>
                fresh(image.value.core) && unchanged(old(image).value.core)
    {
      r := ImageCheck();
      if r.Fail? {
        return;
      }
      var img := image.value;
      var width, height := Trunc(newWidth), Trunc(newHeight);
      if img.imageType == Gif {
        var frames := new Core(lib.resizeImage(img.core.pixels, width, height, Box));
        image := Some(Image(frames, img.file, newWidth, newHeight, img.imageType));
      } else {
        img.core.pixels := lib.resizeImage(img.core.pixels, width, height, Lanczos);
        image := Some(Image(img.core, img.file, newWidth, newHeight, img.imageType));
      }
    }

    /**
     * `crop`: crops the native core in place at the anchored offsets and
     * keeps the record. It has no image check: with no image, the first
     * call on the missing image fails.
     */
    method Crop(cropWidth: int, cropHeight: int, cropX: Anchor := Word("center"), cropY: Anchor := Word("center"))
      returns (r: Outcome<Error>)
      modifies Cores()
      ensures image == old(image)
      ensures old(image).None? ==> r.Fail? && r.error == CallOnNull(
                if cropX.Word? && cropX.word != "left" then "getWidth"
                else if cropY.Word? && cropY.word != "top" then "getHeight"
                else "getCore")
      ensures old(image).Some? ==> r == Done
                                   && Current() == Some(Cropped(lib, old(Current()).value, cropWidth, cropHeight, cropX, cropY))
    {
      if image.None? {
        var member := if cropX.Word? && cropX.word != "left" then "getWidth"
                      else if cropY.Word? && cropY.word != "top" then "getHeight"
                      else "getCore";
        return Fail(CallOnNull(member));
      }
      var img := image.value;
      var x := Place(cropX, "left", "right", img.width, cropWidth as real);
      var y := Place(cropY, "top", "bottom", img.height, cropHeight as real);
      img.core.pixels := lib.cropImage(img.core.pixels, cropWidth, cropHeight, Trunc(x), Trunc(y));
      return Done;
    }

    /** `resizeExact`: `_resize` to exactly the given size, ignoring the aspect ratio. */
    method ResizeExact(newWidth: int, newHeight: int) returns (r: Outcome<Error>)
      modifies this, Cores()
      ensures old(image).None? ==> r == Fail(NoImageToEdit) && image == old(image)
      ensures old(image).Some? ==> r == Done && image.Some?
                                   && Current() == Some(Resized(lib, old(Current()).value, newWidth as real, newHeight as real))
      ensures old(image).Some? && old(image).value.imageType != Gif ==> image.value.core == old(image).value.core
      ensures old(image).Some? && old(image).value.imageType == Gif ==>
                fresh(image.value.core) && unchanged(old(image).value.core)
    {
      r := ResizeTo(newWidth as real, newHeight as real);
    }

    /** `resizeExactWidth`: the width is given, the height follows the aspect ratio. */
    method ResizeExactWidth(newWidth: int) returns (r: Outcome<Error>)
      requires image.Some? ==> image.value.width != 0.0 && image.value.height != 0.0
      modifies this, Cores()
      ensures old(image).None? ==> r == Fail(CallOnNull("getWidth")) && image == old(image)
      ensures old(image).Some? ==> r == Done && image.Some?
                                   && Current() == Some(ExactWidthResized(lib, old(Current()).value, newWidth))
    {
      if image.None? {
        return Fail(CallOnNull("getWidth"));
      }
      var img := image.value;
      var ratio := img.width / img.height;
      var resizeWidth := newWidth as real;
      var resizeHeight := Round(newWidth as real / ratio) as real;
      r := ResizeTo(resizeWidth, resizeHeight);
    }

    /** `resizeExactHeight`: the height is given, the width follows the aspect ratio unrounded. */
    method ResizeExactHeight(newHeight: int) returns (r: Outcome<Error>)
      requires image.Some? ==> image.value.height != 0.0
      modifies this, Cores()
      ensures old(image).None? ==> r == Fail(CallOnNull("getWidth")) && image == old(image)
      ensures old(image).Some? ==> r == Done && image.Some?
                                   && Current() == Some(ExactHeightResized(lib, old(Current()).value, newHeight))
    {
      if image.None? {
        return Fail(CallOnNull("getWidth"));
      }
      var img := image.value;
      var ratio := img.width / img.height;
      assert ExactHeightSize(img.width, img.height, newHeight as real) == Size(newHeight as real * ratio, newHeight as real);
      r := ResizeTo(newHeight as real * ratio, newHeight as real);
    }

    /** `resizeFit`: resize to fit inside newWidth x newHeight, keeping the aspect ratio. */
    method ResizeFit(newWidth: real, newHeight: real) returns (r: Outcome<Error>)
      requires image.Some? ==> image.value.width != 0.0 && image.value.height != 0.0
      modifies this, Cores()
      ensures old(image).None? ==> r == Fail(CallOnNull("getWidth")) && image == old(image)
      ensures old(image).Some? ==> r == Done && image.Some?
                                   && Current() == Some(FitResized(lib, old(Current()).value, newWidth, newHeight))
      ensures old(image).Some? && old(image).value.imageType != Gif ==> image.value.core == old(image).value.core
      ensures old(image).Some? && old(image).value.imageType == Gif ==>
                fresh(image.value.core) && unchanged(old(image).value.core)
    {
      if image.None? {
        return Fail(CallOnNull("getWidth"));
      }
      var img := image.value;
      var s := FitSize(img.width, img.height, newWidth, newHeight);
      r := ResizeTo(s.width, s.height);
    }

    /** `resizeFill`: resize to cover newWidth x newHeight, then centre-crop the excess. */
    method ResizeFill(newWidth: int, newHeight: int) returns (r: Outcome<Error>)
      requires image.Some? ==> image.value.width != 0.0 && image.value.height != 0.0
      modifies this, Cores()
      ensures old(image).None? ==> r == Fail(CallOnNull("getWidth")) && image == old(image)
      ensures old(image).Some? ==> r == Done && image.Some?
                                   && Current() == Some(FillResized(lib, old(Current()).value, newWidth, newHeight))
    {
      if image.None? {
        return Fail(CallOnNull("getWidth"));
      }
      var img := image.value;
      var s := FillSize(img.width, img.height, newWidth as real, newHeight as real);
      r := ResizeTo(s.width, s.height);
      r := Crop(newWidth, newHeight);
    }

    /**
     * `resize`: dispatches on exactly the five modes; any other mode throws
     * 'Invalid resize mode "<mode>".' and leaves the image untouched.
     */
    method Resize(newWidth: int, newHeight: int, mode: string := "fit") returns (r: Outcome<Error>)
      requires image.Some? && UsesRatio(mode) ==> image.value.height != 0.0
      requires image.Some? && DividesByRatio(mode) ==> image.value.width != 0.0
      modifies this, Cores()
      ensures mode !in ResizeModes ==> r == Fail(InvalidResizeMode(mode)) && image == old(image) && Current() == old(Current())
      ensures mode in ResizeModes && old(image).None? ==>
                (image == old(image) && r == Fail(if mode == "exact" then NoImageToEdit else CallOnNull("getWidth")))
      ensures mode in ResizeModes && old(image).Some? ==> r == Done && image.Some?
      ensures mode == "exact" && old(image).Some? ==>
                Current() == Some(Resized(lib, old(Current()).value, newWidth as real, newHeight as real))
      ensures mode == "fill" && old(image).Some? ==> Current() == Some(FillResized(lib, old(Current()).value, newWidth, newHeight))
      ensures mode == "exactWidth" && old(image).Some? ==> Current() == Some(ExactWidthResized(lib, old(Current()).value, newWidth))
      ensures mode == "exactHeight" && old(image).Some? ==>
                Current() == Some(ExactHeightResized(lib, old(Current()).value, newHeight))
      ensures mode == "fit" && old(image).Some? ==>
                Current() == Some(FitResized(lib, old(Current()).value, newWidth as real, newHeight as real))
    {
      if mode == "exact" {
        r := ResizeExact(newWidth, newHeight);
      } else if mode == "fill" {
        r := ResizeFill(newWidth, newHeight);
      } else if mode == "exactWidth" {
        r := ResizeExactWidth(newWidth);
      } else if mode == "exactHeight" {
        r := ResizeExactHeight(newHeight);
      } else if mode == "fit" {
        r := ResizeFit(newWidth as real, newHeight as real);
      } else {
        r := Fail(InvalidResizeMode(mode));
      }
    }

    /**
     * `overlay`: after the image check, fits the overlay into the requested
     * extent when both are truthy, with a second editor that resizes the
     * caller's overlay core in place (a GIF's into a new core), then
     * composites it onto the base core at the anchored offsets, computed
     * from the fitted overlay's recorded size. The caller's overlay record
     * keeps its old width and height.
     */
    method Overlay(overlay: Image, xPos: Anchor := Word("center"), yPos: Anchor := Word("center"),
                   width: Extent := Falsy, height: Extent := Falsy)
      returns (r: Outcome<Error>)
      requires Truthy(width) && Truthy(height) ==> overlay.width != 0.0 && overlay.height != 0.0
      modifies Cores(), overlay.core
      ensures image == old(image)
      ensures old(image).None? ==> r == Fail(NoImageToEdit) && overlay.core.pixels == old(overlay.core.pixels)
      ensures old(image).Some? ==>
                && r == Done
                && Current() == Some(Overlaid(lib, old(Current()).value, old(View(overlay)), xPos, yPos, width, height,
                                              image.value.core == overlay.core))
      ensures old(image).Some? && image.value.core != overlay.core ==>
                overlay.core.pixels == if ResizesOverlayInPlace(old(View(overlay)), width, height)
                                       then SizedOverlay(lib, old(Current()).value, old(View(overlay)), width, height).pixels
                                       else old(overlay.core.pixels)
    {
      r := ImageCheck();
      if r.Fail? {
        return;
      }
      var base := image.value;
      var top := overlay;
      if Truthy(width) && Truthy(height) {
        var overlayWidth := ExtentPixels(width, base.width, overlay.width);
        var overlayHeight := ExtentPixels(height, base.height, overlay.height);
        top := FitOverlay(overlay, overlayWidth, overlayHeight);
      }
      assert View(top) == SizedOverlay(lib, old(View(base)), old(View(overlay)), width, height);
      assert base.core.pixels == if base.core == overlay.core && ResizesOverlayInPlace(old(View(overlay)), width, height)
                                 then View(top).pixels else old(base.core.pixels);
      var x := Place(xPos, "left", "right", base.width, top.width);
      var y := Place(yPos, "top", "bottom", base.height, top.height);
      base.core.pixels := lib.compositeImage(base.core.pixels, top.core.pixels, Trunc(x), Trunc(y));
    }

    /**
     * The block of `overlay` that fits the overlay with a second editor:
     * the overlay's core is resampled in place, a GIF's into a new core,
     * and the second editor's image is what comes back.
     */
    method FitOverlay(overlay: Image, overlayWidth: real, overlayHeight: real) returns (top: Image)
      requires overlay.width != 0.0 && overlay.height != 0.0
      modifies overlay.core
      ensures View(top) == FitResized(lib, old(View(overlay)), overlayWidth, overlayHeight)
      ensures overlay.imageType != Gif ==> top.core == overlay.core
      ensures overlay.imageType == Gif ==> fresh(top.core) && unchanged(overlay.core)
    {
      var editor := new Editor(lib);
      editor.SetImage(overlay);
      var _ := editor.ResizeFit(overlayWidth, overlayHeight);
      top := editor.image.value;
    }

    /** The shared shape of the guarded repaints: image check, then one native call on the core. */
    method Repaint(p: Paint) returns (r: Outcome<Error>)
      modifies Cores()
      ensures image == old(image)
      ensures old(image).None? ==> r == Fail(NoImageToEdit)
      ensures old(image).Some? ==> r == Done && Current() == Some(Painted(lib, old(Current()).value, p))
    {
      r := ImageCheck();
      if r.Fail? {
        return;
      }
      image.value.core.pixels := lib.paint(image.value.core.pixels, p);
    }

    /** `fill`: flood-fills from (x, y) after the image check. */
    method Fill(color: string, x: int := 0, y: int := 0) returns (r: Outcome<Error>)
      modifies Cores()
      ensures image == old(image)
      ensures old(image).None? ==> r == Fail(NoImageToEdit)
      ensures old(image).Some? ==> r == Done && Current() == Some(Painted(lib, old(Current()).value, FloodFill(color, x, y)))
    {
      r := Repaint(FloodFill(color, x, y));
    }

    /** `grayscale` (and its alias `greyscale`): `modulateImage(100, 0, 100)` after the image check. */
    method Grayscale() returns (r: Outcome<Error>)
      modifies Cores()
      ensures image == old(image)
      ensures old(image).None? ==> r == Fail(NoImageToEdit)
      ensures old(image).Some? ==> r == Done && Current() == Some(Painted(lib, old(Current()).value, Modulate(100, 0, 100)))
    {
      r := Repaint(Modulate(100, 0, 100));
    }

    /** `opacity`: after the image check, sets the opacity clamped into 0..1. */
    method Opacity(opacity: real) returns (r: Outcome<Error>)
      modifies Cores()
      ensures image == old(image)
      ensures old(image).None? ==> r == Fail(NoImageToEdit)
      ensures old(image).Some? ==> r == Done
      ensures old(image).Some? && 0.0 <= opacity <= 1.0 ==>
                Current() == Some(Painted(lib, old(Current()).value, SetOpacity(opacity)))
      ensures old(image).Some? && opacity > 1.0 ==> Current() == Some(Painted(lib, old(Current()).value, SetOpacity(1.0)))
      ensures old(image).Some? && opacity < 0.0 ==> Current() == Some(Painted(lib, old(Current()).value, SetOpacity(0.0)))
    {
      r := ImageCheck();
      if r.Fail? {
        return;
      }
      var level := if opacity > 1.0 then 1.0 else opacity;
      level := if level < 0.0 then 0.0 else level;
      r := Repaint(SetOpacity(level));
    }

    /** `rotate`: after the image check, rotates by -angle over the background colour (black by default). */
    method Rotate(angle: real, color: Option<string> := None) returns (r: Outcome<Error>)
      modifies Cores()
      ensures image == old(image)
      ensures old(image).None? ==> r == Fail(NoImageToEdit)
      ensures old(image).Some? ==> r == Done && Current() == Some(Painted(lib, old(Current()).value,
                RotateBy(if color.Some? then color.value else "#000000", -angle)))
    {
      var background := if color.Some? then color.value else "#000000";
      r := Repaint(RotateBy(background, -angle));
    }

    /**
     * `text`: after the image check, annotates with the baseline moved down
     * by the font size, black unless a colour is given; `font` `None` is
     * the bundled Liberation Sans.
     */
    method Text(text: string, size: int := 12, x: int := 0, y: int := 0, color: Option<string> := None,
                font: Option<string> := None, angle: real := 0.0)
      returns (r: Outcome<Error>)
      modifies Cores()
      ensures image == old(image)
      ensures old(image).None? ==> r == Fail(NoImageToEdit)
      ensures old(image).Some? ==> r == Done && Current() == Some(Painted(lib, old(Current()).value,
                Annotate(text, size, x, y + size, angle, if color.Some? then color.value else "#000000", font)))
    {
      var baseline := y + size;
      var ink := if color.Some? then color.value else "#000000";
      r := Repaint(Annotate(text, size, x, baseline, angle, ink, font));
    }

    /**
     * `save`: after the image check, picks the type (asked for, else from
     * the extension, else the image's own) and writes all frames for GIF,
     * a PNG for PNG, and otherwise a JPEG with quality 75 by default,
     * clamped into 0..100; `setImageCompressionQuality` takes an integer,
     * so PHP truncates a fractional quality on the way in.
     */
    method Save(file: string, imageType: Option<ImageType> := None, quality: Option<real> := None,
                interlace: bool := false)
      returns (r: Result<Write, Error>)
      ensures r.Failure? <==> image.None?
      ensures r.Failure? ==> r.error == NoImageToEdit
      ensures r.Success? ==> var t := SaveType(imageType, file, image.value.imageType);
                r.value == if t == Gif then WriteFrames(file)
                           else if t == Png then WritePng(file)
                           else WriteJpeg(file, t, Trunc(JpegQuality(quality)), interlace)
      ensures r.Success? && r.value.WriteJpeg? ==> 0 <= r.value.quality <= 100
      ensures r.Success? && r.value.WriteJpeg? && quality.Some? && 0.0 <= quality.value <= 100.0 ==>
                r.value.quality as real <= quality.value < r.value.quality as real + 1.0
    {
      var check := ImageCheck();
      if check.Fail? {
        return Failure(check.error);
      }
      var t := if imageType.Some? then imageType.value else TypeFromFileName(file);
      if imageType.None? && t == Unknown {
        t := image.value.imageType;
      }
      if t == Gif {
        return Success(WriteFrames(file));
      } else if t == Png {
        return Success(WritePng(file));
      }
      var q := if quality.None? then 75.0 else quality.value;
      q := if q > 100.0 then 100.0 else q;
      q := if q < 0.0 then 0.0 else q;
      return Success(WriteJpeg(file, t, Trunc(q), interlace));
    }

    /**
     * `equal`: false when the recorded widths or heights differ; otherwise
     * walks the first image's pixels row by row and returns false at the
     * first pixel whose red, green or blue differs from the second image's
     * pixel at that position. The second core must have a pixel there.
     */
    method Equal(image1: Image, image2: Image) returns (same: bool)
      requires image1.width == image2.width && image1.height == image2.height ==>
                 Reaches(image1.core.pixels, image2.core.pixels)
      ensures same == SameImage(View(image1), View(image2))
    {
      if image1.width != image2.width || image1.height != image2.height {
        return false;
      }
      var p, q := image1.core.pixels, image2.core.pixels;
      var row := 0;
      while row < |p|
        invariant 0 <= row <= |p|
        invariant forall y, x :: 0 <= y < row && 0 <= x < |p[y]| ==> SameColour(p[y][x], q[y][x])
      {
        var column := 0;
        while column < |p[row]|
          invariant 0 <= column <= |p[row]|
          invariant forall x :: 0 <= x < column ==> SameColour(p[row][x], q[row][x])
        {
          var a, b := p[row][column], q[row][column];
          if a.r != b.r || a.g != b.g || a.b != b.b {
            return false;
          }
          column := column + 1;
        }
        row := row + 1;
      }
      return true;
    }

    /**
     * `_differenceHash`: a fresh editor resizes the image to exactly 9x8,
     * which for anything but a GIF resamples the caller's core in place;
     * then for each row the left pixel's brightness is carried along and
     * '1' is appended when it exceeds the next pixel's, '0' otherwise. A
     * core emptied by `clear()` cannot be resampled: Imagick throws and the
     * core is left as it was.
     */
    method DifferenceHash(img: Image) returns (r: Result<string, Error>)
      requires ResizesToThumb(lib)
      modifies img.core
      ensures !HoldsImage(old(img.core.pixels)) ==> r == Failure(EmptyCore) && unchanged(img.core)
      ensures HoldsImage(old(img.core.pixels)) ==>
                r == Success(DHash(Thumbnail(lib, old(View(img)))))
                && img.core.pixels == HashedPixels(lib, old(View(img)))
    {
      if !HoldsImage(img.core.pixels) {
        return Failure(EmptyCore);
      }
      var editor := new Editor(lib);
      editor.SetImage(img);
      var _ := editor.ResizeExact(ThumbWidth, ThumbHeight);
      var thumb := editor.image.value.core.pixels;
      assert thumb == Thumbnail(lib, old(View(img)));
      assert img.core.pixels == HashedPixels(lib, old(View(img)));
      var hash := "";
      var y := 0;
      while y < ThumbHeight
        invariant 0 <= y <= ThumbHeight
        invariant img.core.pixels == HashedPixels(lib, old(View(img)))
        invariant hash == HashPrefix(thumb, 8 * y)
      {
        var left := Brightness(thumb[y][0]);
        var x := 1;
        while x < ThumbWidth
          invariant 1 <= x <= ThumbWidth
          invariant hash == HashPrefix(thumb, 8 * y + x - 1)
          invariant left == Brightness(thumb[y][x - 1])
          invariant img.core.pixels == HashedPixels(lib, old(View(img)))
        {
          var right := Brightness(thumb[y][x]);
          var n := 8 * y + x - 1;
          assert n / 8 == y && n % 8 == x - 1;
          HashPrefixStep(thumb, n);
          if left > right {
            hash := hash + "1";
          } else {
            hash := hash + "0";
          }
          left := right;
          x := x + 1;
        }
        y := y + 1;
      }
      r := Success(hash);
    }

    /**
     * `compare`: the number of positions where the two images' difference
     * hashes differ, a Hamming distance between 0 and 64. Both cores are
     * left holding their thumbnails (GIFs excepted), and when the two
     * images share a core the second hash is taken from the first's
     * thumbnail. An empty core makes the hash that reaches it throw: the
     * first image's core is then already resampled if only the second one
     * is empty.
     */
    method Compare(image1: Image, image2: Image) returns (r: Result<nat, Error>)
      requires ResizesToThumb(lib)
      modifies image1.core, image2.core
      ensures r == CompareDistance(lib, old(View(image1)), old(View(image2)), image1.core == image2.core)
      ensures r.Failure? <==> !HoldsImage(old(image1.core.pixels)) || !HoldsImage(old(image2.core.pixels))
      ensures r.Success? ==> r.value <= 64
      ensures !HoldsImage(old(image1.core.pixels)) ==> unchanged(image1.core, image2.core)
      ensures image1.core != image2.core && HoldsImage(old(image1.core.pixels)) ==>
                image1.core.pixels == HashedPixels(lib, old(View(image1)))
      ensures HoldsImage(old(image1.core.pixels)) && !HoldsImage(old(image2.core.pixels)) ==> unchanged(image2.core)
      ensures HoldsImage(old(image1.core.pixels)) && HoldsImage(old(image2.core.pixels)) ==>
                image2.core.pixels
                == HashedPixels(lib, SecondHashed(lib, old(View(image1)), old(View(image2)), image1.core == image2.core))
    {
      var bin1 := DifferenceHash(image1);
      if bin1.Failure? {
        return Failure(bin1.error);
      }
      var bin2 := DifferenceHash(image2);
      if bin2.Failure? {
        return Failure(bin2.error);
      }
      var distance := CountDifferences(bin1.value, bin2.value);
      return Success(distance);
    }
  }

  /** The counting loop of `compare`: the positions where two equally long hashes differ. */
  method CountDifferences(bin1: string, bin2: string) returns (distance: nat)
    requires |bin1| == |bin2|
    ensures distance == Hamming(bin1, bin2)
  {
    distance := 0;
    var i := 0;
    while i < |bin1|
      invariant 0 <= i <= |bin1|
      invariant distance == Hamming(bin1[..i], bin2[..i])
    {
      assert bin1[..i + 1][..i] == bin1[..i] && bin2[..i + 1][..i] == bin2[..i];
      if bin1[i] != bin2[i] {
        distance := distance + 1;
      }
      i := i + 1;
    }
    assert bin1[..i] == bin1 && bin2[..i] == bin2;
  }

  /**
   * For two images with their own cores, `compare` is symmetric: swapping
   * them gives the same distance, or the same throw.
   */
  lemma CompareSymmetric(lib: Imagick, first: Picture, second: Picture)
    requires ResizesToThumb(lib)
    ensures CompareDistance(lib, first, second, false) == CompareDistance(lib, second, first, false)
  {
    if HoldsImage(first.pixels) && HoldsImage(second.pixels) {
      HammingSymmetric(DHash(Thumbnail(lib, first)), DHash(Thumbnail(lib, second)));
    }
  }

  /**
   * For two images with their own cores, `compare` gives 0 exactly when
   * both hold an image and the hashes agree, and so always for two such
   * images with the same pixels and type.
   */
  lemma CompareZero(lib: Imagick, first: Picture, second: Picture)
    requires ResizesToThumb(lib)
    ensures CompareDistance(lib, first, second, false) == Success(0)
            <==> HoldsImage(first.pixels) && HoldsImage(second.pixels)
                 && DHash(Thumbnail(lib, first)) == DHash(Thumbnail(lib, second))
    ensures HoldsImage(first.pixels) && first.pixels == second.pixels && first.imageType == second.imageType ==>
              CompareDistance(lib, first, second, false) == Success(0)
  {
    if HoldsImage(first.pixels) && HoldsImage(second.pixels) {
      HammingZeroIff(DHash(Thumbnail(lib, first)), DHash(Thumbnail(lib, second)));
    }
  }

  /**
   * `compare($img, $img)`: an empty core throws; otherwise for a GIF the
   * distance is 0, and for any other image the second hash is read from
   * the resampled thumbnail, so the distance is 0 exactly when resampling
   * the 9x8 thumbnail to 9x8 again keeps its hash.
   */
  lemma CompareSelf(lib: Imagick, pic: Picture)
    requires ResizesToThumb(lib)
    ensures !HoldsImage(pic.pixels) ==> CompareDistance(lib, pic, pic, true) == Failure(EmptyCore)
    ensures HoldsImage(pic.pixels) && pic.imageType == Gif ==> CompareDistance(lib, pic, pic, true) == Success(0)
    ensures HoldsImage(pic.pixels) && pic.imageType != Gif ==>
              (CompareDistance(lib, pic, pic, true) == Success(0)
               <==> DHash(Thumbnail(lib, pic)) == DHash(Thumbnail(lib, pic.(pixels := Thumbnail(lib, pic)))))
  {
    if HoldsImage(pic.pixels) {
      var again := SecondHashed(lib, pic, pic, true);
      HammingZeroIff(DHash(Thumbnail(lib, pic)), DHash(Thumbnail(lib, again)));
      if pic.imageType == Gif {
        assert again == pic;
      }
    }
  }

  /**
   * `equal` is reflexive, and symmetric for two cores of one shape; with
   * cores of different shapes it only reads along the first image.
   */
  lemma SameImageIsEquivalence(a: Picture, b: Picture)
    requires a.width == b.width && a.height == b.height ==> Reaches(a.pixels, b.pixels)
    ensures Reaches(a.pixels, a.pixels) && SameImage(a, a)
    ensures SameImage(a, b) && SameShape(a.pixels, b.pixels) ==> Reaches(b.pixels, a.pixels) && SameImage(b, a)
  {
    SameRgbIsEquivalence(a.pixels, a.pixels, a.pixels);
    if SameImage(a, b) && SameShape(a.pixels, b.pixels) {
      SameRgbIsEquivalence(a.pixels, b.pixels, b.pixels);
    }
  }

  /**
   * After `_resize`, `resizeFit` with whole-pixel targets reports a size
   * inside the box, touching it on at least one side.
   */
  lemma FitResizedFits(lib: Imagick, img: Picture, newWidth: int, newHeight: int)
    requires img.width > 0.0 && img.height > 0.0
    ensures var r := FitResized(lib, img, newWidth as real, newHeight as real);
            && r.width <= newWidth as real && r.height <= newHeight as real
            && (r.width == newWidth as real || r.height == newHeight as real)
            && r.file == img.file && r.imageType == img.imageType
  {
    FitFitsInside(img.width, img.height, newWidth, newHeight);
  }

  /**
   * `resizeFill` with whole-pixel targets resizes to a size covering the
   * box and then crops the centre newWidth x newHeight of it: the crop's
   * offsets lie inside the resized image.
   */
  lemma FillResizedCovers(lib: Imagick, img: Picture, newWidth: int, newHeight: int)
    requires img.width > 0.0 && img.height > 0.0
    requires newWidth >= 0 && newHeight >= 0
    ensures var s := FillSize(img.width, img.height, newWidth as real, newHeight as real);
            var r := FillResized(lib, img, newWidth, newHeight);
            && r.width == s.width && r.height == s.height
            && s.width >= newWidth as real && s.height >= newHeight as real
            && 0 <= Centered(s.width, newWidth as real) && Centered(s.width, newWidth as real) as real + newWidth as real <= s.width
            && 0 <= Centered(s.height, newHeight as real) && Centered(s.height, newHeight as real) as real + newHeight as real <= s.height
  {
    FillCovers(img.width, img.height, newWidth, newHeight);
  }
}

=== FILE: imagick_files.dfy ===
/**
 * How the Imagick editor's `save` picks an image type and a JPEG quality:
 * `_getImageTypeFromFileName` (PHP's `pathinfo` extension, lower-cased) and
 * the quality default and clamp.
 */
module ImagickFiles {

  import opened Wrappers
  import opened GrafikaTypes

  /** The part of `s` after its last `c`; all of `s` when it holds no `c`. */
  function AfterLast(s: string, c: char): (r: string)
    ensures c !in r
    ensures |r| <= |s| && r == s[|s| - |r|..]
    ensures |r| < |s| ==> s[|s| - |r| - 1] == c
  {
    if s == [] then []
    else if s[|s| - 1] == c then []
    else AfterLast(s[..|s| - 1], c) + [s[|s| - 1]]
  }

  /** `s` without the slashes it ends with, as PHP's basename drops them. */
  function StripTrailingSlashes(s: string): (r: string)
    ensures |r| <= |s| && r == s[..|r|]
    ensures r != [] ==> r[|r| - 1] != '/'
  {
    if s != [] && s[|s| - 1] == '/' then StripTrailingSlashes(s[..|s| - 1]) else s
  }

  /** PHP `basename`: the last path component. */
  function Basename(path: string): (name: string)
    ensures '/' !in name
  {
    AfterLast(StripTrailingSlashes(path), '/')
  }

  /** `pathinfo($path, PATHINFO_EXTENSION)`: what follows the last dot of the basename; empty if it has none. */
  function Extension(path: string): (ext: string)
    ensures '/' !in ext && '.' !in ext
  {
    var name := Basename(path);
    if '.' in name then AfterLast(name, '.') else ""
  }

  /** ASCII `strtolower`. */
  function Lower(s: string): (r: string)
    ensures |r| == |s|
    ensures forall i :: 0 <= i < |s| ==> r[i] == if 'A' <= s[i] <= 'Z' then (s[i] as int + 32) as char else s[i]
  {
    seq(|s|, i requires 0 <= i < |s| => if 'A' <= s[i] <= 'Z' then (s[i] as int + 32) as char else s[i])
  }

  /** The type an already lower-cased extension names. */
  function ExtensionType(ext: string): ImageType
  {
    if ext == "jpg" || ext == "jpeg" then Jpeg
    else if ext == "gif" then Gif
    else if ext == "png" then Png
    else Unknown
  }

  /** `_getImageTypeFromFileName`. */
  function TypeFromFileName(file: string): (t: ImageType)
    ensures Extension(file) == [] ==> t == Unknown
  {
    ExtensionType(Lower(Extension(file)))
  }

  /** Appending text free of `c` extends what follows the last `c`. */
  lemma {:induction false} AfterLastAppend(s: string, t: string, c: char)
    requires c !in t
    ensures AfterLast(s + t, c) == AfterLast(s, c) + t
  {
    if t != [] {
      var u := t[..|t| - 1];
      assert s + t == (s + u) + [t[|t| - 1]];
      AfterLastAppend(s, u, c);
    } else {
      assert s + t == s;
    }
  }

  /**
   * The extension of `stem.ext` is `ext` whenever `ext` holds no slash or
   * dot, whatever the stem (dots in directory names included).
   */
  lemma ExtensionOfName(stem: string, ext: string)
    requires '/' !in ext && '.' !in ext
    ensures Extension(stem + "." + ext) == ext
  {
    BasenameOfDotted(stem, ext);
    DottedName(AfterLast(stem, '/'), ext);
  }

  /** The base name of `stem.ext`, for an `ext` without slashes, is the stem's last component followed by `.ext`. */
  lemma BasenameOfDotted(stem: string, ext: string)
    requires '/' !in ext
    ensures Basename(stem + "." + ext) == AfterLast(stem, '/') + "." + ext
  {
    var path := stem + "." + ext;
    assert path[|path| - 1] != '/' by {
      if ext == [] {
        assert path[|path| - 1] == '.';
      } else {
        assert path[|path| - 1] == ext[|ext| - 1];
      }
    }
    assert StripTrailingSlashes(path) == path;
    assert path == stem + ("." + ext);
    AfterLastAppend(stem, "." + ext, '/');
  }

  /** A name `base.ext` with a dot-free `ext` holds a dot, and `ext` is what follows its last one. */
  lemma DottedName(base: string, ext: string)
    requires '.' !in ext
    ensures '.' in base + "." + ext
    ensures AfterLast(base + "." + ext, '.') == ext
  {
    var name := base + "." + ext;
    assert name[|base|] == '.';
    assert name == (base + ".") + ext;
    AfterLastAppend(base + ".", ext, '.');
    assert AfterLast(base + ".", '.') == [];
  }

  /**
   * The type is chosen by the extension alone and case-insensitively:
   * jpg/jpeg give JPEG, gif GIF, png PNG, anything else UNKNOWN.
   */
  lemma TypeByExtension(stem: string, ext: string)
    requires '/' !in ext && '.' !in ext
    ensures TypeFromFileName(stem + "." + ext) == ExtensionType(Lower(ext))
    ensures Lower(ext) in {"jpg", "jpeg"} <==> TypeFromFileName(stem + "." + ext) == Jpeg
    ensures Lower(ext) == "gif" <==> TypeFromFileName(stem + "." + ext) == Gif
    ensures Lower(ext) == "png" <==> TypeFromFileName(stem + "." + ext) == Png
  {
    ExtensionOfName(stem, ext);
  }

  /** A last path component without a dot has no extension, even under a dotted directory. */
  lemma NoDotNoType(dir: string, name: string)
    requires name != [] && '/' !in name && '.' !in name
    ensures TypeFromFileName(dir + "/" + name) == Unknown
  {
    var path := dir + "/" + name;
    assert StripTrailingSlashes(path) == path by {
      assert path[|path| - 1] == name[|name| - 1];
    }
    assert path == (dir + "/") + name;
    AfterLastAppend(dir + "/", name, '/');
    assert AfterLast(dir + "/", '/') == [];
    assert Basename(path) == name;
  }

  /**
   * The JPEG quality `save` uses: 75 when none is given, then clamped into
   * 0..100; a value already in range is kept. A number or numeric string
   * is taken by its value, fractions included.
   */
  function JpegQuality(quality: Option<real>): (q: real)
    ensures 0.0 <= q <= 100.0
    ensures quality.None? ==> q == 75.0
    ensures quality.Some? && 0.0 <= quality.value <= 100.0 ==> q == quality.value
    ensures quality.Some? && quality.value > 100.0 ==> q == 100.0
    ensures quality.Some? && quality.value < 0.0 ==> q == 0.0
  {
    var q := if quality.None? then 75.0 else quality.value;
    var q := if q > 100.0 then 100.0 else q;
    if q < 0.0 then 0.0 else q
  }
}

=== FILE: imagick_geometry.dfy ===
/**
 * The arithmetic inside the Imagick editor (Editor.php): PHP's `round` and
 * `(int)` cast, the crop/overlay anchor words, and the sizes the four
 * aspect-ratio resize modes hand to `_resize`. PHP numbers are modelled as
 * `real`, which is exact where PHP's floats round.
 */
module ImagickGeometry {

  /** PHP `round()`: to the nearest integer, halves away from zero. */
  function Round(x: real): (n: int)
    ensures x - 0.5 <= n as real <= x + 0.5
    ensures n as real == x + 0.5 ==> x >= 0.0
    ensures n as real == x - 0.5 ==> x < 0.0
  {
    if x >= 0.0 then (x + 0.5).Floor else -((0.5 - x).Floor)
  }

  /** PHP's `(int)` cast, which the native library also applies to its integer arguments: toward zero. */
  function Trunc(x: real): (n: int)
    ensures 0.0 <= x ==> 0 <= n && n as real <= x < n as real + 1.0
    ensures x < 0.0 ==> n <= 0 && n as real - 1.0 < x <= n as real
  {
    if x >= 0.0 then x.Floor else -((-x).Floor)
  }

  /** The two conditions of `Round`'s contract pin its value down: nothing else meets them. */
  lemma RoundIsUnique(x: real, n: int)
    requires x - 0.5 <= n as real <= x + 0.5
    requires n as real == x + 0.5 ==> x >= 0.0
    requires n as real == x - 0.5 ==> x < 0.0
    ensures n == Round(x)
  {
  }

  /** A crop or overlay position: a pixel offset, or a word such as "left" or "center". */
  datatype Anchor = Offset(pixels: int) | Word(word: string)

  /**
   * `(int)round(canvas / 2 - size / 2)`: the offset that centres `size` in
   * `canvas`. The margins left on the two sides differ by at most one pixel,
   * and a region that fits is placed inside the canvas.
   */
  function Centered(canvas: real, size: real): (x: int)
    ensures -1.0 <= (canvas - size - x as real) - x as real <= 1.0
    ensures 0.0 <= size <= canvas ==> 0 <= x && x as real <= canvas - size
  {
    var x := Round(canvas / 2.0 - size / 2.0);
    assert 0.0 <= size <= canvas && canvas - size < 1.0 ==> x == 0;
    x
  }

  /**
   * The anchor rule of `crop` and `overlay` on one axis. A number passes
   * through; the word `near` ("left"/"top") gives 0; the word `far`
   * ("right"/"bottom") puts the far edges flush; "center" and every other
   * word centre the region.
   */
  function Place(pos: Anchor, near: string, far: string, canvas: real, size: real): (x: real)
    requires near != far
    ensures pos.Offset? ==> x == pos.pixels as real
    ensures pos == Word(near) ==> x == 0.0
    ensures pos == Word(far) ==> x + size == canvas
    ensures pos.Word? && pos.word != near && pos.word != far ==> x == Centered(canvas, size) as real
    ensures pos.Word? && 0.0 <= size <= canvas ==> 0.0 <= x && x + size <= canvas
  {
    match pos
    case Offset(n) => n as real
    case Word(w) =>
      if w == near then 0.0
      else if w == far then canvas - size
      else Centered(canvas, size) as real
  }

  /** A width and height handed to `_resize`. */
  datatype Size = Size(width: real, height: real)

  /**
   * `resizeExactWidth`: the new width is given and the height follows the
   * aspect ratio `w / h`, rounded to within half a pixel.
   */
  function ExactWidthSize(w: real, h: real, newWidth: real): (s: Size)
    requires w != 0.0 && h != 0.0
    ensures s.width == newWidth
    ensures NearAspect(s, w, h)
    ensures s.height == s.height.Floor as real
  {
    var ratio := w / h;
    assert newWidth / ratio == newWidth * h / w;
    var height := Round(newWidth / ratio) as real;
    assert -0.5 <= height - newWidth * h / w <= 0.5;
    var s := Size(newWidth, height);
    assert s.width * h / w == newWidth * h / w;
    assert -0.5 <= s.height - s.width * h / w <= 0.5;
    assert NearAspect(s, w, h);
    s
  }

  /**
   * `resizeExactHeight`: the new height is given and the width keeps the
   * aspect ratio exactly (unrounded). Only the height is divided by, so a
   * zero width gives a zero ratio and a zero new width.
   */
  function ExactHeightSize(w: real, h: real, newHeight: real): (s: Size)
    requires h != 0.0
    ensures s.height == newHeight
    ensures s.width * h == s.height * w
  {
    var ratio := w / h;
    Size(newHeight * ratio, newHeight)
  }

  /**
   * `resizeFit`: try the full new width with the rounded aspect-true height;
   * if that does not fit, base the size on the new height instead. The
   * source also tests `$resizeWidth > $newWidth`, which compares the new
   * width with itself and never holds.
   */
  function FitSize(w: real, h: real, newWidth: real, newHeight: real): (s: Size)
    requires w != 0.0 && h != 0.0
    ensures s.width == newWidth || s.height == newHeight
  {
    var ratio := w / h;
    var resizeWidth := newWidth;
    var resizeHeight := Round(newWidth / ratio) as real;
    if resizeWidth > newWidth || resizeHeight > newHeight then Size(newHeight * ratio, newHeight)
    else Size(resizeWidth, resizeHeight)
  }

  /**
   * `resizeFill`: try the full new width with the rounded aspect-true
   * height; if that leaves the new height uncovered, base the size on the new
   * height instead. The source's `$optimumWidth < $newWidth` test compares
   * the new width with itself and never holds.
   */
  function FillSize(w: real, h: real, newWidth: real, newHeight: real): (s: Size)
    requires w != 0.0 && h != 0.0
    ensures s.width == newWidth || s.height == newHeight
  {
    var ratio := w / h;
    var optimumWidth := newWidth;
    var optimumHeight := Round(newWidth / ratio) as real;
    if optimumWidth < newWidth || optimumHeight < newHeight then Size(newHeight * ratio, newHeight)
    else Size(optimumWidth, optimumHeight)
  }

  /**
   * `resizeFit` switches to the height-based size exactly when the rounded
   * width-based height exceeds the new height; the width test plays no part.
   */
  lemma FitSwitchesOnHeightOnly(w: real, h: real, newWidth: real, newHeight: real)
    requires w > 0.0 && h > 0.0
    ensures var tall := Round(newWidth * h / w) as real;
            FitSize(w, h, newWidth, newHeight)
            == if tall > newHeight then Size(newHeight * w / h, newHeight) else Size(newWidth, tall)
  {
    assert newWidth / (w / h) == newWidth * h / w;
    assert newHeight * (w / h) == newHeight * w / h;
  }

  /**
   * `resizeFill` switches to the height-based size exactly when the rounded
   * width-based height falls short of the new height.
   */
  lemma FillSwitchesOnHeightOnly(w: real, h: real, newWidth: real, newHeight: real)
    requires w > 0.0 && h > 0.0
    ensures var tall := Round(newWidth * h / w) as real;
            FillSize(w, h, newWidth, newHeight)
            == if tall < newHeight then Size(newHeight * w / h, newHeight) else Size(newWidth, tall)
  {
    assert newWidth / (w / h) == newWidth * h / w;
    assert newHeight * (w / h) == newHeight * w / h;
  }

  /** From `a * h / w > b` with positive `w`, `h`: `b * w / h < a`. */
  lemma ScaleBelow(w: real, h: real, a: real, b: real)
    requires w > 0.0 && h > 0.0
    requires a * h / w > b
    ensures b * w / h < a
  {
    assert a * h > b * w by {
      assert a * h == (a * h / w) * w;
      assert (a * h / w) * w > b * w;
    }
    assert b * w / h < a by {
      assert b * w == (b * w / h) * h;
      assert (b * w / h) * h < a * h;
    }
  }

  /** `s` lies inside the box and touches it on at least one side. */
  predicate WithinBox(s: Size, boxWidth: real, boxHeight: real)
  {
    s.width <= boxWidth && s.height <= boxHeight && (s.width == boxWidth || s.height == boxHeight)
  }

  /** `s` covers the box and matches it on at least one side. */
  predicate CoversBox(s: Size, boxWidth: real, boxHeight: real)
  {
    s.width >= boxWidth && s.height >= boxHeight && (s.width == boxWidth || s.height == boxHeight)
  }

  /** `s` has the aspect ratio `w / h` up to half a pixel of height. */
  predicate NearAspect(s: Size, w: real, h: real)
    requires w != 0.0
  {
    -0.5 <= s.height - s.width * h / w <= 0.5
  }

  /**
   * For whole-pixel targets, `resizeFit` never exceeds the box: the result
   * fits in newWidth x newHeight, touches it on at least one side, and keeps
   * the aspect ratio up to the half pixel lost by rounding.
   */
  lemma FitFitsInside(w: real, h: real, newWidth: int, newHeight: int)
    requires w > 0.0 && h > 0.0
    ensures WithinBox(FitSize(w, h, newWidth as real, newHeight as real), newWidth as real, newHeight as real)
    ensures NearAspect(FitSize(w, h, newWidth as real, newHeight as real), w, h)
  {
    var nw, nh := newWidth as real, newHeight as real;
    FitSizeFits(w, h, nw, newHeight, FitSize(w, h, nw, nh));
  }

  /** Either size `resizeFit` may pick fits the box. */
  lemma FitSizeFits(w: real, h: real, nw: real, newHeight: int, s: Size)
    requires w > 0.0 && h > 0.0
    requires s == FitSize(w, h, nw, newHeight as real)
    ensures WithinBox(s, nw, newHeight as real) && NearAspect(s, w, h)
  {
    FitSwitchesOnHeightOnly(w, h, nw, newHeight as real);
    if Round(nw * h / w) > newHeight {
      FitByHeight(w, h, nw, newHeight, s);
    } else {
      FitByWidth(w, h, nw, newHeight, s);
    }
  }

  /** The height-based `resizeFit` size, taken when the width-based one is too tall, fits the box. */
  lemma FitByHeight(w: real, h: real, nw: real, newHeight: int, s: Size)
    requires w > 0.0 && h > 0.0
    requires Round(nw * h / w) > newHeight
    requires s == Size(newHeight as real * w / h, newHeight as real)
    ensures WithinBox(s, nw, newHeight as real) && NearAspect(s, w, h)
  {
    var nh := newHeight as real;
    assert nw * h / w > nh;
    ScaleBelow(w, h, nw, nh);
    RescaleCancels(w, h, nh);
  }

  /** The width-based `resizeFit` size, taken when it is not too tall, fits the box. */
  lemma FitByWidth(w: real, h: real, nw: real, newHeight: int, s: Size)
    requires w > 0.0 && h > 0.0
    requires Round(nw * h / w) <= newHeight
    requires s == Size(nw, Round(nw * h / w) as real)
    ensures WithinBox(s, nw, newHeight as real) && NearAspect(s, w, h)
  {
    var x := nw * h / w;
    assert x - 0.5 <= Round(x) as real <= x + 0.5;
    assert s.width * h / w == x;
  }

  /**
   * For whole-pixel targets, `resizeFill` always covers the box: the result
   * is at least newWidth x newHeight, matches it on at least one side, and
   * keeps the aspect ratio up to the half pixel lost by rounding.
   */
  lemma FillCovers(w: real, h: real, newWidth: int, newHeight: int)
    requires w > 0.0 && h > 0.0
    ensures CoversBox(FillSize(w, h, newWidth as real, newHeight as real), newWidth as real, newHeight as real)
    ensures NearAspect(FillSize(w, h, newWidth as real, newHeight as real), w, h)
  {
    var nw, nh := newWidth as real, newHeight as real;
    FillSizeCovers(w, h, nw, newHeight, FillSize(w, h, nw, nh));
  }

  /** Either size `resizeFill` may pick covers the box. */
  lemma FillSizeCovers(w: real, h: real, nw: real, newHeight: int, s: Size)
    requires w > 0.0 && h > 0.0
    requires s == FillSize(w, h, nw, newHeight as real)
    ensures CoversBox(s, nw, newHeight as real) && NearAspect(s, w, h)
  {
    FillSwitchesOnHeightOnly(w, h, nw, newHeight as real);
    if Round(nw * h / w) < newHeight {
      FillByHeight(w, h, nw, newHeight, s);
    } else {
      FillByWidth(w, h, nw, newHeight, s);
    }
  }

  /** The height-based `resizeFill` size, taken when the width-based one is too short, covers the box. */
  lemma FillByHeight(w: real, h: real, nw: real, newHeight: int, s: Size)
    requires w > 0.0 && h > 0.0
    requires Round(nw * h / w) < newHeight
    requires s == Size(newHeight as real * w / h, newHeight as real)
    ensures CoversBox(s, nw, newHeight as real) && NearAspect(s, w, h)
  {
    var nh := newHeight as real;
    assert nw * h / w < nh;
    ScaleAbove(w, h, nw, nh);
    RescaleCancels(w, h, nh);
  }

  /** The width-based `resizeFill` size, taken when it is tall enough, covers the box. */
  lemma FillByWidth(w: real, h: real, nw: real, newHeight: int, s: Size)
    requires w > 0.0 && h > 0.0
    requires Round(nw * h / w) >= newHeight
    requires s == Size(nw, Round(nw * h / w) as real)
    ensures CoversBox(s, nw, newHeight as real) && NearAspect(s, w, h)
  {
    var x := nw * h / w;
    assert x - 0.5 <= Round(x) as real <= x + 0.5;
    assert s.width * h / w == x;
  }

  /** Scaling by `w / h` and back by `h / w` is the identity. */
  lemma RescaleCancels(w: real, h: real, b: real)
    requires w > 0.0 && h > 0.0
    ensures (b * w / h) * h / w == b
  {
    assert (b * w / h) * h == b * w;
  }

  /** From `a * h / w < b` with positive `w`, `h`: `b * w / h > a`. */
  lemma ScaleAbove(w: real, h: real, a: real, b: real)
    requires w > 0.0 && h > 0.0
    requires a * h / w < b
    ensures b * w / h > a
  {
    assert a * h < b * w by {
      assert a * h == (a * h / w) * w;
      assert (a * h / w) * w < b * w;
    }
    assert b * w / h > a by {
      assert b * w == (b * w / h) * h;
      assert (b * w / h) * h > a * h;
    }
  }
}

=== FILE: imagick_hash.dfy ===
/**
 * What the Imagick editor's `_differenceHash`, `compare` and `equal`
 * compute, as functions over pixel grids, with the properties the editor's
 * documentation promises of them.
 */
module ImagickHash {

  import opened GrafikaTypes

  /** The thumbnail `_differenceHash` reads: 9 columns by 8 rows. */
  const ThumbWidth := 9
  const ThumbHeight := 8

  /** `floor((r + g + b) / 3)`: the grey level the hash compares. */
  function Brightness(p: Rgba): (v: int)
    ensures 0 <= v <= 255
  {
    (p.r + p.g + p.b) / 3
  }

  /** The hash bit for column `x` (1..8) of a row: '1' iff the pixel to its left is brighter. */
  function Bit(row: seq<Rgba>, x: int): (c: char)
    requires 1 <= x < |row|
    ensures c == '1' <==> Brightness(row[x - 1]) > Brightness(row[x])
    ensures c == '0' || c == '1'
  {
    if Brightness(row[x - 1]) > Brightness(row[x]) then '1' else '0'
  }

  /** The first `n` characters of the hash, in the order rows 0..7 and, in each, columns 1..8. */
  function HashPrefix(thumb: Raster, n: nat): (hash: string)
    requires IsGrid(thumb, ThumbWidth, ThumbHeight) && n <= 64
    ensures |hash| == n
  {
    seq(n, k requires 0 <= k < n => Bit(thumb[k / 8], k % 8 + 1))
  }

  /** The difference hash of a 9x8 thumbnail: 64 bits, one per pair of horizontally adjacent pixels. */
  function DHash(thumb: Raster): (hash: string)
    requires IsGrid(thumb, ThumbWidth, ThumbHeight)
    ensures |hash| == 64
  {
    HashPrefix(thumb, 64)
  }

  /** The hash has 64 characters, each '0' or '1'; the one for row y, column x is '1' iff column x - 1 is brighter. */
  lemma DHashShape(thumb: Raster)
    requires IsGrid(thumb, ThumbWidth, ThumbHeight)
    ensures |DHash(thumb)| == 64
    ensures forall k :: 0 <= k < 64 ==> DHash(thumb)[k] == '0' || DHash(thumb)[k] == '1'
    ensures forall y, x :: 0 <= y < 8 && 1 <= x <= 8 ==>
              (DHash(thumb)[8 * y + x - 1] == '1' <==> Brightness(thumb[y][x - 1]) > Brightness(thumb[y][x]))
  {
    forall k | 0 <= k < 64
      ensures DHash(thumb)[k] == '0' || DHash(thumb)[k] == '1'
    {
      DHashAt(thumb, k / 8, k % 8 + 1);
    }
    forall y, x | 0 <= y < 8 && 1 <= x <= 8
      ensures DHash(thumb)[8 * y + x - 1] == '1' <==> Brightness(thumb[y][x - 1]) > Brightness(thumb[y][x])
    {
      DHashAt(thumb, y, x);
    }
  }

  /** The hash character for row `y`, column `x` is that pixel pair's bit. */
  lemma DHashAt(thumb: Raster, y: int, x: int)
    requires IsGrid(thumb, ThumbWidth, ThumbHeight)
    requires 0 <= y < 8 && 1 <= x <= 8
    ensures DHash(thumb)[8 * y + x - 1] == Bit(thumb[y], x)
  {
    RowColumn(y, x);
    assert |thumb[y]| == 9;
  }

  /** Position `8 * y + x - 1` of the hash lies in row `y`, column `x`. */
  lemma RowColumn(y: int, x: int)
    requires 0 <= y < 8 && 1 <= x <= 8
    ensures (8 * y + x - 1) / 8 == y && (8 * y + x - 1) % 8 == x - 1
  {
  }

  /** Extending the prefix by one character appends the next bit. */
  lemma HashPrefixStep(thumb: Raster, n: nat)
    requires IsGrid(thumb, ThumbWidth, ThumbHeight) && n < 64
    ensures HashPrefix(thumb, n + 1) == HashPrefix(thumb, n) + [Bit(thumb[n / 8], n % 8 + 1)]
  {
  }

  /**
   * The Hamming distance `compare` counts: the number of positions where
   * the two strings hold different characters.
   */
  function Hamming(a: string, b: string): (d: nat)
    requires |a| == |b|
    ensures d <= |a|
  {
    if a == [] then 0
    else Hamming(a[..|a| - 1], b[..|b| - 1]) + (if a[|a| - 1] != b[|b| - 1] then 1 else 0)
  }

  /** The distance is zero exactly for identical strings. */
  lemma {:induction false} HammingZeroIff(a: string, b: string)
    requires |a| == |b|
    ensures Hamming(a, b) == 0 <==> a == b
  {
    if a != [] {
      HammingZeroIff(a[..|a| - 1], b[..|b| - 1]);
      if Hamming(a, b) == 0 {
        assert a == a[..|a| - 1] + [a[|a| - 1]];
        assert b == b[..|b| - 1] + [b[|b| - 1]];
      }
    }
  }

  /** The distance does not depend on the order of its arguments. */
  lemma {:induction false} HammingSymmetric(a: string, b: string)
    requires |a| == |b|
    ensures Hamming(a, b) == Hamming(b, a)
  {
    if a != [] {
      HammingSymmetric(a[..|a| - 1], b[..|b| - 1]);
    }
  }

  /** The distance obeys the triangle inequality, so it is a metric on strings of one length. */
  lemma {:induction false} HammingTriangle(a: string, b: string, c: string)
    requires |a| == |b| == |c|
    ensures Hamming(a, c) <= Hamming(a, b) + Hamming(b, c)
  {
    if a != [] {
      HammingTriangle(a[..|a| - 1], b[..|b| - 1], c[..|c| - 1]);
    }
  }

  /** Red, green and blue agree; alpha is not looked at. */
  predicate SameColour(p: Rgba, q: Rgba)
  {
    p.r == q.r && p.g == q.g && p.b == q.b
  }

  /** Two grids with the same number of rows and the same length for each row. */
  predicate SameShape(p: Raster, q: Raster)
  {
    |p| == |q| && forall y :: 0 <= y < |p| ==> |p[y]| == |q[y]|
  }

  /** `q` has a pixel at every position where `p` has one, so `q` can be read along `p`'s rows. */
  predicate Reaches(p: Raster, q: Raster)
  {
    |p| <= |q| && forall y :: 0 <= y < |p| ==> |p[y]| <= |q[y]|
  }

  /** Every pixel of `p` has the same colour as the pixel at that position in `q`. */
  predicate SameRgb(p: Raster, q: Raster)
    requires Reaches(p, q)
  {
    forall y, x :: 0 <= y < |p| && 0 <= x < |p[y]| ==> SameColour(p[y][x], q[y][x])
  }

  /**
   * Agreeing on colour along `p`'s rows is reflexive, symmetric for grids
   * of one shape, and transitive; alpha plays no part.
   */
  lemma SameRgbIsEquivalence(p: Raster, q: Raster, s: Raster)
    requires Reaches(p, q) && Reaches(q, s)
    ensures Reaches(p, p) && SameRgb(p, p)
    ensures SameShape(p, q) && SameRgb(p, q) ==> Reaches(q, p) && SameRgb(q, p)
    ensures Reaches(p, s) && (SameRgb(p, q) && SameRgb(q, s) ==> SameRgb(p, s))
  {
  }

  /**
   * Reading along `p` only: a grid agrees with any larger grid that holds
   * it in its top-left corner, while the larger one does not even reach
   * back. So `equal` is not symmetric once cores of one recorded size
   * differ in shape.
   */
  lemma SameRgbLooksAlongFirst(px: Rgba, other: Rgba)
    ensures Reaches([[px]], [[px, other]]) && SameRgb([[px]], [[px, other]])
    ensures !Reaches([[px, other]], [[px]])
  {
    assert |[[px, other]][0]| == 2;
  }
}

=== FILE: wrappers.dfy ===
/** Failure-carrying wrappers shared by every module of the model. */
module Wrappers {

  datatype Option<+T> = None | Some(value: T)

  /** A PHP/JavaScript call either returns a value or throws; `Failure` is the throw. */
  datatype Result<+R, +E> = Success(value: R) | Failure(error: E)

  /** A call made only for its effect: it completes or it throws. */
  datatype Outcome<+E> = Done | Fail(error: E)
}
